=== FILE: README.md ===
# open-poll: the poll-code generator, the word-frequency ranking, the summary and the admin poll endpoint

open-poll is a small web application. An administrator creates polls, and
each poll gets a short random code. Respondents answer a poll in free text.
When a poll is closed, the answers are reduced to a ranking of frequent words
and a short summary. This project models the four pieces of logic in
`src/lib/utils.ts` and `src/pages/api/admin/polls/index.ts` as pure Dafny
functions and proves properties of them.

- **`generateUniqueCode`** (`UniqueCode`).
  - It draws up to ten candidate codes of `length` characters (six by default). The characters come from the 32-character alphabet `ABCDEFGHJKLMNPQRSTUVWXYZ23456789`.
  - It returns the first candidate that no stored poll uses, and fails when all ten are taken.
  - `Math.random()` is an input: a stream of reals in [0, 1) (`RandomSource`). The codes already in the database are a set.
- **`generateWordFrequencies`** (`WordFrequencies`, built on `JsText`, `JsObjects`, `StableSort`, `Seqs`).
  - The texts are joined with a space and lower-cased. Punctuation is stripped, the text is split at whitespace runs, and short words and stop words are dropped.
  - Each word is counted in a plain object. Words seen at least twice are kept, sorted stably by count (highest first), and the first fifty are returned.
  - `GenerateWordFrequencies` is the list of (term, count) pairs that `Object.fromEntries` receives. Among equal counts the order is exactly JavaScript's:
    - `Object.entries` lists array-index keys first, in ascending numeric order, then the other keys in creation order (section 10.1.11.1 of ECMA-262);
    - `Array.prototype.sort` is stable.
  - The function returns the object built from that list. `ReturnedEntries` is the order in which that object's entries are enumerated, by `Object.entries` or by `JSON.stringify` when the closed poll is stored. By the same rule of ECMA-262, terms that are array indices (such as `2024`) come first, in ascending numeric order, ahead of words with higher counts. The other terms keep the list's order. The word cloud takes the entries in this order and re-sorts them by count with a stable sort. So among terms with equal counts, the screen shows them in this enumeration order (index terms first) rather than in the ranking's order.
- **`generateAISummary`** (`AiSummary`).
  - With no responses it returns a fixed sentence.
  - Otherwise it reports the number of responses, their rounded average length, and up to three responses drawn at random, rendered with the source's template.
- **The admin poll endpoint** (`AdminPolls`, wrapped by `Auth.WithAdminAuth`). It is a transition from a store of polls to the next store, plus a reply (status and JSON body).
  - A non-admin request gets 401.
  - GET lists the polls, newest first.
  - POST validates the question, generates a code and appends one poll.
  - A failing database gives 500.
  - Any other method gets 405.

`CountingAsWritten` models the counting loop on a real JavaScript object. That object inherits properties, which matters for two words (see Findings). Everywhere else the model counts with a plain map.

The alphabet literal at `src/lib/utils.ts:6` has 32 characters: the 24 upper-case letters other than I and O, and the digits 2 to 9.

## Model

| member | source | states |
|---|---|---|
| RandomSource.ScaledIndex | src/lib/utils.ts:16 | `Math.floor(u * n)` for a draw `u` in [0, 1) is an index below `n`, namely the cell of [0, 1) that `u` falls in |
| RandomSource.EveryIndexReachable | src/lib/utils.ts:16 | every index below `n`, and so every alphabet position, is the result of some draw |
| UniqueCode.PickChar | src/lib/utils.ts:16-17 | one character of a candidate, `characters.charAt(Math.floor(Math.random() * 32))`, is always an alphabet character |
| UniqueCode.Candidate | src/lib/utils.ts:12-18 | every candidate has exactly `length` characters (none when `length` ≤ 0), all from the alphabet |
| UniqueCode.FirstFree | src/lib/utils.ts:11-32 | from a given attempt on, success returns a well-formed code that is not in use; failure happens exactly when every remaining candidate is in use |
| UniqueCode.GenerateUniqueCode | src/lib/utils.ts:4-33 | a returned code is not among the existing codes and has `length` alphabet characters; the generator fails exactly when all ten candidates collide |
| UniqueCode.ReturnsFirstFreeCandidate | src/lib/utils.ts:11-28 | the returned code is the candidate of the first attempt whose code is free, and every earlier attempt collided |
| UniqueCode.BuildCandidate | src/lib/utils.ts:12-18 | the inner loop builds, character by character, the candidate of that attempt |
| UniqueCode.ComputeUniqueCode | src/lib/utils.ts:11-32 | the two nested loops compute the generator's result: the first free candidate, or the error after ten collisions |
| UniqueCode.AlphabetContents | src/lib/utils.ts:5-6 | the alphabet has 32 characters and holds exactly the upper-case letters and digits other than 0, 1, I and O |
| UniqueCode.NoCollisionFirstAttempt | src/lib/utils.ts:20-28 | when no stored code has the requested length, the first candidate is returned |
| JsText.ToLower | src/lib/utils.ts:38 | `toLowerCase` of one character never gives an upper-case ASCII letter; it keeps a character a word character, and whitespace, exactly when it was one; lower-case letters and characters that are not word characters are unchanged (on ASCII; see Left out) |
| JsText.ToLowerLetters | src/lib/utils.ts:38 | each upper-case letter becomes the lower-case letter at the same place in the alphabet, and every other character is left as it is |
| JsText.Lower | src/lib/utils.ts:38 | `toLowerCase` on a whole text keeps its length; JsText.ToLowerLetters gives each character's image and JsText.LowerStripCommute relates it to the stripping |
| JsText.StripNonWord | src/lib/utils.ts:54 | `replace(/[^\w\s]/g, '')` leaves only word characters and whitespace |
| JsText.StripKeepsWordChars | src/lib/utils.ts:54 | a character survives the stripping exactly when it occurs in the text and is a word character or whitespace |
| JsText.Normalize | src/lib/utils.ts:38-54 | after lower-casing and stripping `[^\w\s]`, only lower-case letters, digits, `_` and whitespace remain |
| JsText.LowerStripCommute | src/lib/utils.ts:38-54 | lower-casing and then stripping gives the same text as stripping and then lower-casing |
| JsText.NormalizeKeepsWordChars | src/lib/utils.ts:38-54 | the normalised text is exactly the word characters and whitespace characters of the input, in order, each lower-cased |
| JsText.Join | src/lib/utils.ts:38 | `texts.join(' ')`; it has no contract of its own, and JsText.JoinFields states what splitting the joined text gives |
| JsText.Split | src/lib/utils.ts:55 | `split(/\s+/)` gives pieces without whitespace, and only the first and last piece can be empty (when the text starts or ends with whitespace) |
| JsText.SplitFieldsAgree | src/lib/utils.ts:55 | splitting at whitespace runs and splitting at every whitespace character keep the same pieces once empty pieces are dropped |
| JsText.JoinFields | src/lib/utils.ts:38 | joining the texts with a space and splitting again gives each text's pieces in turn, so no token spans two texts |
| JsText.TrimStart | src/pages/api/admin/polls/index.ts:33 | the leading part of `trim()`: what it removes is all whitespace, what it keeps is the rest of the text unchanged and does not start with whitespace |
| JsText.TrimEnd | src/pages/api/admin/polls/index.ts:33 | the trailing part of `trim()`: what it removes is all whitespace, what it keeps is the front of the text unchanged and does not end with whitespace |
| JsText.Trim | src/pages/api/admin/polls/index.ts:33 | `trim()` leaves text that neither starts nor ends with whitespace, and is empty exactly when the text is all whitespace |
| JsText.TrimIdempotent | src/pages/api/admin/polls/index.ts:42 | trimming a trimmed question changes nothing |
| JsObjects.OwnKeysOrder | src/lib/utils.ts:71 | `Object.entries` lists the same entries, array-index keys first in ascending numeric order, and the other keys in creation order |
| StableSort.SortBy | src/lib/utils.ts:80 | the sort returns a permutation of its input, ordered by non-increasing count |
| StableSort.SortByStable | src/lib/utils.ts:80 | entries with equal counts keep their input order |
| StableSort.SortByUnique | src/lib/utils.ts:80 | any sorted, stable arrangement equals the model's sort, so the ranking is fully determined |
| WordFrequencies.CountWords | src/lib/utils.ts:59-68 | the counting loop ends with every word as a key, counted by its number of occurrences, and the keys in first-seen order |
| WordFrequencies.CountOne | src/lib/utils.ts:62-68 | one pass of the loop body keeps the object a tally of the words seen so far: the new word gains one occurrence and, when it is new, becomes the last key |
| WordFrequencies.Tokens | src/lib/utils.ts:38-55 | the pieces of the joined, lower-cased and stripped text split at whitespace runs; it has no contract of its own, and WordFrequencies.TokenChars and WordFrequencies.TermsAreKeptTokens state what the tokens are |
| WordFrequencies.TokenChars | src/lib/utils.ts:38-55 | every token consists only of lower-case letters, digits and `_` |
| WordFrequencies.Words | src/lib/utils.ts:53-56 | the tokens longer than two characters that are not stop words; it has no contract of its own, and WordFrequencies.WordsPermutation and WordFrequencies.TermsAreKeptTokens state its properties |
| WordFrequencies.Tally | src/lib/utils.ts:59-67 | the counting object as (key, count) pairs in key creation order; it has no contract of its own, and WordFrequencies.TallyMembers states what it holds |
| WordFrequencies.Entries | src/lib/utils.ts:71 | `Object.entries` of the counting object: one entry per key in `order`, with that key's count; WordFrequencies.EntriesAreTally ties it to the tally |
| WordFrequencies.EntriesAreTally | src/lib/utils.ts:59-71 | when the loop's map and key order hold every word's occurrences in first-seen order, `Object.entries` of them is exactly the tally |
| WordFrequencies.Bump | src/lib/utils.ts:62-66 | one occurrence of a word makes it a key and adds one to its count (starting from zero when it was absent); every other key keeps its count |
| WordFrequencies.Ranking | src/lib/utils.ts:69-80 | the filtered, sorted entry list before truncation; it has no contract of its own, and WordFrequencies.RankingMembers and WordFrequencies.TiesKeepKeyOrder state its contents and tie order |
| WordFrequencies.Rank | src/lib/utils.ts:69-82 | the first fifty entries of the ranking; it has no contract of its own, and the Rank lemmas below state its entries, order and length |
| WordFrequencies.GenerateWordFrequencies | src/lib/utils.ts:36-82 | the list handed to `Object.fromEntries`; it has no contract of its own, and WordFrequencies.TermsAreKeptTokens, WordFrequencies.CountsAreTokenOccurrences, WordFrequencies.RankSorted and WordFrequencies.OrderIndependent state what it holds |
| WordFrequencies.ReturnedEntries | src/lib/utils.ts:78-82 | the returned object enumerates the same entries as the list; array-index terms come first in ascending numeric order, and the other terms keep the list's order, so their counts are non-increasing |
| WordFrequencies.IndexTermEnumeratedFirst | src/lib/utils.ts:78-82 | an array-index term listed after a word is enumerated before it, so a ranking `[("hello", 3), ("2024", 2)]` enumerates as `2024` and then `hello` |
| WordFrequencies.ComputeWordFrequencies | src/lib/utils.ts:36-83 | the loop-based computation returns the ranking |
| WordFrequencies.TallyMembers | src/lib/utils.ts:59-68 | the counting object holds an entry for a word exactly when the word occurs, with its number of occurrences |
| WordFrequencies.RankingMembers | src/lib/utils.ts:70-76 | before truncation the ranking holds exactly the words seen at least twice, each with its number of occurrences |
| WordFrequencies.TermsAreKeptTokens | src/lib/utils.ts:38-56 | every reported term is a token longer than two characters, is not a stop word, and consists of lower-case letters, digits and `_` |
| WordFrequencies.CountsAreTokenOccurrences | src/lib/utils.ts:53-68 | every reported count is at least two and equals the term's number of occurrences among the tokens |
| WordFrequencies.RankEntries | src/lib/utils.ts:59-82 | every entry of the result is a word seen at least twice, with its number of occurrences |
| WordFrequencies.RareWordsOmitted | src/lib/utils.ts:70-76 | a word seen fewer than two times is never reported |
| WordFrequencies.RankSorted | src/lib/utils.ts:78-82 | the list handed to `Object.fromEntries` has at most fifty entries, with counts in non-increasing order |
| WordFrequencies.RankDistinctTerms | src/lib/utils.ts:59-82 | no term is reported twice |
| WordFrequencies.OmittedWordsRankLower | src/lib/utils.ts:78-82 | a word seen at least twice is missing only when fifty terms are reported and it is seen no more often than the fiftieth |
| WordFrequencies.NoWordsNoTerms | src/lib/utils.ts:53-56 | no texts, or no token surviving the filter, gives an empty result |
| WordFrequencies.DroppedWordsOnly | src/lib/utils.ts:41-56 | texts that are words of lower-case letters, digits and `_` joined by single spaces, each a stop word or at most two characters long (such as "the a an" and "to by at"), give an empty result |
| WordFrequencies.WordsPermutation | src/lib/utils.ts:38 | reordering the texts only reorders the kept tokens |
| WordFrequencies.OrderIndependent | src/lib/utils.ts:38-82 | reordering the texts leaves the sequence of reported counts unchanged, and a term reported for both orders has the same count; which of the terms tied at the fiftieth count are reported, and the order of terms with equal counts, can change |
| WordFrequencies.TiesKeepKeyOrder | src/lib/utils.ts:72-80 | among terms with equal counts, the result keeps the `Object.entries` order of the filtered object |
| CountingAsWritten.CountStep | src/lib/utils.ts:62-66 | one pass of the loop body on a real object: `__proto__` leaves the object unchanged; any other word becomes a key; a positive count gains one; a missing ordinary word starts at 1; a missing `constructor` is stored as NaN; every other key is untouched |
| CountingAsWritten.CountAsWritten | src/lib/utils.ts:61-67 | after the loop the object never has `__proto__` as a key, and its keys are words of the input |
| CountingAsWritten.AsWrittenAgrees | src/lib/utils.ts:62-68 | on a real JavaScript object, the loop counts every word other than `constructor` and `__proto__` as the model does |
| CountingAsWritten.ConstructorOneShort | src/lib/utils.ts:62-68 | the word `constructor` is stored as NaN after one occurrence and as one less than its number of occurrences after more |
| CountingAsWritten.ConstructorUndercounted | src/lib/utils.ts:62-68 | three occurrences of `constructor` are counted as two |
| CountingAsWritten.ProtoNeverStored | src/lib/utils.ts:62-68 | the word `__proto__` never becomes a key of the counting object |
| AiSummary.TotalLength | src/lib/utils.ts:97 | the `reduce` sum is at least each response's length, and is zero exactly when every response is empty |
| AiSummary.Sample | src/lib/utils.ts:111-112 | each sample is one of the responses |
| AiSummary.Summarize | src/lib/utils.ts:88-113 | the placeholder is chosen exactly for no responses; a report counts every response and holds `min(3, n)` samples, each one of the responses |
| AiSummary.Utf16Length | src/lib/utils.ts:97 | `text.length` counts UTF-16 code units: between one and two per character, exactly one per character when there are no characters above U+FFFF |
| AiSummary.RoundedAverage | src/lib/utils.ts:97 | `Math.round(total / n)` is the nearest integer to the average, with halves rounded up |
| AiSummary.Render | src/lib/utils.ts:115-120 | the text is the placeholder exactly for the empty summary; a report starts with "This poll received " |
| AiSummary.GenerateAISummary | src/lib/utils.ts:87-121 | the function returns the placeholder sentence exactly when there are no responses |
| AiSummary.ComputeSamples | src/lib/utils.ts:108-113 | the sampling loop pushes `min(3, n)` responses, the i-th chosen by the i-th draw |
| AiSummary.EmptyInputText | src/lib/utils.ts:88-90 | no responses give exactly "No responses to summarize." |
| AiSummary.ReportCountReadsBack | src/lib/utils.ts:115 | the number written after "This poll received " reads back as the number of responses |
| AiSummary.EqualLengthsAverage | src/lib/utils.ts:97 | when every response has the same length, that length is the reported average |
| AiSummary.SingleResponse | src/lib/utils.ts:108-113 | a single response is the only sample |
| AiSummary.SamplePositions | src/lib/utils.ts:110-112 | which positions are sampled depends only on the number of responses and the draws |
| JsNumbers.Decimal | src/lib/utils.ts:115 | a number is written in canonical decimal form and reads back as itself |
| JsNumbers.DecimalReadsBack | src/lib/utils.ts:115 | reading the leading digits of a written number followed by a non-digit gives the number back |
| Auth.WithAdminAuth | src/lib/auth.ts:11-18 | without the admin cookie the reply is 401 and the handler never runs, so the state is unchanged; with it the handler's result is returned |
| Auth.IsAdmin | src/lib/auth.ts:5-8 | the request is an admin's exactly when its `admin_token` cookie is `authenticated`; it has no contract of its own, and Auth.WithAdminAuth states what it decides |
| AdminPolls.HandleAdminPolls | src/pages/api/admin/polls/index.ts:57 | the exported route answers 401 and leaves the store unchanged for a non-admin request, and is the handler otherwise |
| AdminPolls.Handler | src/pages/api/admin/polls/index.ts:6-55 | the handler answers 405 to a method other than GET and POST; every reply other than 201 leaves the store unchanged; a 201 answers a POST and appends exactly one poll |
| AdminPolls.CreatePoll | src/pages/api/admin/polls/index.ts:31-51 | an invalid question gets 400 and stores nothing; 201 comes exactly when the question is valid, the database answers and a free code is found, and then one poll is appended with the trimmed question and a well-formed code no stored poll has; every other outcome stores nothing |
| AdminPolls.ValidQuestion | src/pages/api/admin/polls/index.ts:33 | the question passes the check exactly when it is a string whose trimmed form is not empty |
| AdminPolls.ListPolls | src/pages/api/admin/polls/index.ts:10-13 | the listing holds every stored poll once, ordered by `createdAt`, newest first |
| AdminPolls.ListAll | src/pages/api/admin/polls/index.ts:8-25 | GET replies 200 with every poll, newest first, or 500 when the database fails; the store is unchanged either way |
| AdminPolls.OtherMethodsRejected | src/pages/api/admin/polls/index.ts:54 | a method other than GET and POST gets 405 and the store is unchanged |
| AdminPolls.BadQuestionRejected | src/pages/api/admin/polls/index.ts:31-35 | a missing, non-string, empty or whitespace-only question gets 400; no code is drawn and the store is unchanged |
| AdminPolls.BadQuestions | src/pages/api/admin/polls/index.ts:33 | a string question is accepted exactly when its trimmed form is non-empty |
| AdminPolls.CreatedIff | src/pages/api/admin/polls/index.ts:29-47 | a POST gets 201 exactly when the body holds a valid question, the database answers and a free code is found |
| AdminPolls.CreateAppendsOne | src/pages/api/admin/polls/index.ts:38-47 | a 201 appends exactly one poll and returns it; the poll holds the trimmed question and a well-formed code no stored poll has |
| AdminPolls.CreateFailureStoresNothing | src/pages/api/admin/polls/index.ts:48-50 | a null body, a failing database or exhausted code generation gets 500 and stores nothing |
| AdminPolls.OnlyCreationChangesStore | src/pages/api/admin/polls/index.ts:6-55 | every reply other than 201 leaves the store unchanged, and a 201 only appends |
| AdminPolls.PreservesInvariant | src/pages/api/admin/polls/index.ts:29-51 | every request keeps the stored questions trimmed and non-empty, and the codes well-formed and pairwise distinct |
| AdminPolls.ServeKeepsInvariant | src/pages/api/admin/polls/index.ts:6-57 | over any sequence of requests the store stays valid, only grows, and grows by one poll per 201 reply |

## Left out

- `Math.random()` and floating point. The random results are an input stream of exact reals in [0, 1), and `Math.floor(u * n)` is computed exactly. Rounding in the floating-point product is not modelled, and neither is the average's floating-point division before `Math.round`.
- The database.
  - Prisma is replaced by a sequence of polls in creation order and one flag that says whether the database answers during the request. Each failing call becomes a 500.
  - Columns the schema fills in are not modelled: ids, status, and the `_count.responses` field that GET includes. The schema is not part of this model.
  - `createdAt` is taken from the request's environment.
- AdminPolls.ListAll: the order of polls with equal `createdAt` is the database's choice, so it is not stated. The model keeps creation order.
- Concurrency. Two requests could draw the same free code between the uniqueness check and the insert. The model serves requests one at a time.
- `isAdmin`'s cookie-header parsing is done by a library. The model starts from the parsed cookies.
- The `cookie` library, `console.error` logging, and response headers.
- A request body that is a non-object JSON value, such as a string, has no `question` property. It is modelled as an object whose question is missing, which gives the same 400.
- `generateUniqueCode` with a non-integer `length` is not modelled. The length is an integer, and a negative one gives empty candidates, as the loop does.
- `generateAISummary` computes the shortest and longest responses but never uses them. They are left out.
- JsNumbers.Decimal: numbers of 10^21 and above would be written in exponent form by JavaScript. Counts and lengths of that size are not modelled.
- JsText.ToLower, JsText.Normalize: `toLowerCase` is modelled on A–Z only; non-ASCII characters such as `É` are left unchanged, where JavaScript would lower-case them. The two non-ASCII characters whose lower-case form contains an ASCII word character (U+0130 and U+212A) are therefore stripped instead of kept. Every other non-ASCII character is stripped by `[^\w\s]` in either case.
- The UI components, login and logout, and the close, reopen, edit and submit endpoints are not part of this model.

## Findings

| source | as written | input that shows it | evidently intended | confidence | as-written member | corrected member |
|---|---|---|---|---|---|---|
| src/lib/utils.ts:62-68 | `wordFrequencies[word]` finds the inherited `Object.prototype.constructor` function, so the first `constructor` stores NaN and the count restarts at 1 | texts `["constructor constructor constructor"]` give `{ constructor: 2 }`; `["constructor constructor"]` give `{}` | `{ constructor: 3 }` and `{ constructor: 2 }` | not executed; follows from the ECMAScript property lookup rules | CountingAsWritten.ConstructorUndercounted | WordFrequencies.CountsAreTokenOccurrences |
| src/lib/utils.ts:62-68 | assigning a number to `wordFrequencies["__proto__"]` goes to the prototype setter, which ignores it, so the word is never counted | texts `["__proto__ __proto__"]` give `{}` | `{ __proto__: 2 }` | not executed; follows from the ECMAScript property lookup rules | CountingAsWritten.ProtoNeverStored | WordFrequencies.CountsAreTokenOccurrences |

=== FILE: admin_polls.dfy ===
/** The admin poll-collection endpoint: GET lists every poll, newest
    first; POST creates a poll from a question and a freshly generated
    code. The store is a sequence of polls in creation order and every
    request is a transition from one store to the next. */
module AdminPolls {
  import opened Seqs
  import opened StableSort
  import opened Results
  import opened RandomSource
  import opened JsText
  import opened UniqueCode
  import opened Auth

  datatype Poll = Poll(question: string, code: string, createdAt: int)

  type Store = seq<Poll>

  /** The value of `req.body.question`: absent or undefined, a string, or
      any other JSON value. */
  datatype Field = Missing | Text(text: string) | NonText

  /** `req.body`: null or absent (destructuring it throws), or an object. */
  datatype RequestBody = NoBody | Object(question: Field)

  datatype Request = Request(httpMethod: string, cookies: map<string, string>, body: RequestBody)

  /** What a request sees of the world: `Math.random()`, the time the
      database stamps on a new row, and whether the database answers. */
  datatype Env = Env(draws: Draws, now: int, storeUp: bool)

  datatype Payload = PollList(polls: seq<Poll>) | Created(poll: Poll)

  const Ok200: nat := 200
  const Created201: nat := 201
  const BadRequest: nat := 400
  const MethodNotAllowed: nat := 405
  const ServerError: nat := 500

  function Codes(store: Store): set<string> {
    set p | p in store :: p.code
  }

  function CreatedAtRank(p: Poll): int {
    p.createdAt
  }

  /** `!question || typeof question !== 'string' || question.trim() === ''`
      is false: a string with a non-whitespace character. */
  predicate ValidQuestion(q: Field): (b: bool)
    ensures b <==> q.Text? && Trim(q.text) != ""
  {
    q.Text? && !AllSpace(q.text)
  }

  /** `findMany({ orderBy: { createdAt: 'desc' } })`. */
  function ListPolls(store: Store): (r: Store)
    ensures multiset(r) == multiset(store)
    ensures SortedBy(r, CreatedAtRank)
  {
    SortBy(store, CreatedAtRank)
  }

  /** The POST branch once the body has a `question` property. */
  function CreatePoll(store: Store, q: Field, env: Env): (r: (Reply<Payload>, Store))
    ensures !ValidQuestion(q) ==> r.0.status == BadRequest && r.1 == store
    ensures r.0.status == Created201
            <==> ValidQuestion(q) && env.storeUp && GenerateUniqueCode(env.draws, DefaultCodeLength, Codes(store)).Ok?
    ensures r.0.status != Created201 ==> r.1 == store
    ensures r.0.status == Created201 ==>
              && q.Text? && |r.1| == |store| + 1 && r.1[..|store|] == store
              && r.1[|store|].question == Trim(q.text)
              && r.1[|store|].code !in Codes(store)
              && WellFormed(r.1[|store|].code, DefaultCodeLength)
  {
    if !ValidQuestion(q) then
      (Reply(BadRequest, MessageBody("Question is required")), store)
    else if !env.storeUp then
      (Reply(ServerError, MessageBody("Failed to create poll")), store)
    else
      match GenerateUniqueCode(env.draws, DefaultCodeLength, Codes(store))
      case Err(_) => (Reply(ServerError, MessageBody("Failed to create poll")), store)
      case Ok(code) =>
        var poll := Poll(Trim(q.text), code, env.now);
        (Reply(Created201, Payload(Created(poll))), store + [poll])
  }

  /** `handler(req, res)`, before the admin guard. */
  function Handler(store: Store, req: Request, env: Env): (r: (Reply<Payload>, Store))
    ensures req.httpMethod != "GET" && req.httpMethod != "POST" ==> r.0.status == MethodNotAllowed
    ensures r.0.status != Created201 ==> r.1 == store
    ensures r.0.status == Created201 ==>
              req.httpMethod == "POST" && |r.1| == |store| + 1 && r.1[..|store|] == store
  {
    if req.httpMethod == "GET" then
      if !env.storeUp then (Reply(ServerError, MessageBody("Failed to fetch polls")), store)
      else (Reply(Ok200, Payload(PollList(ListPolls(store)))), store)
    else if req.httpMethod == "POST" then
      match req.body
      case NoBody => (Reply(ServerError, MessageBody("Failed to create poll")), store)
      case Object(q) => CreatePoll(store, q, env)
    else
      (Reply(MethodNotAllowed, MessageBody("Method not allowed")), store)
  }

  /** The exported route: `withAdminAuth(handler)`. */
  function HandleAdminPolls(store: Store, req: Request, env: Env): (r: (Reply<Payload>, Store))
    ensures !IsAdmin(req.cookies) ==> r.0.status == Unauthorized && r.1 == store
    ensures IsAdmin(req.cookies) ==> r == Handler(store, req, env)
  {
    WithAdminAuth(req.cookies, store, s => Handler(s, req, env))
  }

  /** Every stored poll has a trimmed, non-empty question and a
      well-formed code, and no two polls share a code. */
  predicate ValidPoll(p: Poll) {
    Trimmed(p.question) && WellFormed(p.code, DefaultCodeLength)
  }

  /** Non-empty, without whitespace at either end: what `trim` gives for a
      string that is not all whitespace. */
  predicate Trimmed(q: string) {
    q != [] && !IsSpace(q[0]) && !IsSpace(q[|q| - 1])
  }

  predicate UniqueCodes(store: Store) {
    forall i, j :: 0 <= i < j < |store| ==> store[i].code != store[j].code
  }

  predicate AllValid(store: Store) {
    forall i :: 0 <= i < |store| ==> ValidPoll(store[i])
  }

  predicate StoreInvariant(store: Store) {
    AllValid(store) && UniqueCodes(store)
  }

  predicate Admin(req: Request) {
    IsAdmin(req.cookies)
  }

  /** Methods other than GET and POST are refused and change nothing. */
  lemma OtherMethodsRejected(store: Store, req: Request, env: Env)
    requires Admin(req) && req.httpMethod != "GET" && req.httpMethod != "POST"
    ensures HandleAdminPolls(store, req, env) == (Reply(MethodNotAllowed, MessageBody("Method not allowed")), store)
  {
  }

  /** A POST whose question is missing, not a string, empty or only
      whitespace is refused with 400; no code is drawn and nothing is
      stored. */
  lemma BadQuestionRejected(store: Store, req: Request, env: Env)
    requires Admin(req) && req.httpMethod == "POST"
    requires req.body.Object? && !ValidQuestion(req.body.question)
    ensures HandleAdminPolls(store, req, env) == (Reply(BadRequest, MessageBody("Question is required")), store)
  {
  }

  /** The three ways a question is bad. */
  lemma BadQuestions(t: string)
    ensures !ValidQuestion(Missing) && !ValidQuestion(NonText)
    ensures ValidQuestion(Text(t)) <==> Trim(t) != []
  {
  }

  /** A POST succeeds exactly when the body is an object with a valid
      question, the database answers and a free code is found. */
  lemma CreatedIff(store: Store, req: Request, env: Env)
    requires Admin(req) && req.httpMethod == "POST"
    ensures HandleAdminPolls(store, req, env).0.status == Created201 <==>
              req.body.Object? && ValidQuestion(req.body.question) && env.storeUp
              && GenerateUniqueCode(env.draws, DefaultCodeLength, Codes(store)).Ok?
  {
  }

  /** A successful POST appends exactly one poll, holding the trimmed
      question and a code no stored poll has, and returns it. */
  lemma CreateAppendsOne(store: Store, req: Request, env: Env)
    requires Admin(req) && req.httpMethod == "POST"
    requires HandleAdminPolls(store, req, env).0.status == Created201
    ensures var (reply, store') := HandleAdminPolls(store, req, env);
            && |store'| == |store| + 1 && store'[..|store|] == store
            && reply.body == Payload(Created(store'[|store|]))
            && store'[|store|].question == Trim(req.body.question.text)
            && store'[|store|].code !in Codes(store)
            && WellFormed(store'[|store|].code, DefaultCodeLength)
  {
    CreatedIff(store, req, env);
    var (reply, store') := HandleAdminPolls(store, req, env);
    assert store'[..|store|] == store;
  }

  /** A POST fails with 500, storing nothing, when the body is null, the
      database does not answer or every candidate code is taken. */
  lemma CreateFailureStoresNothing(store: Store, req: Request, env: Env)
    requires Admin(req) && req.httpMethod == "POST"
    requires req.body.NoBody?
             || (ValidQuestion(req.body.question)
                 && (!env.storeUp || GenerateUniqueCode(env.draws, DefaultCodeLength, Codes(store)).Err?))
    ensures HandleAdminPolls(store, req, env) == (Reply(ServerError, MessageBody("Failed to create poll")), store)
  {
  }

  /** GET returns every stored poll, newest first, and changes nothing;
      it fails with 500 when the database does not answer. */
  lemma ListAll(store: Store, req: Request, env: Env)
    requires Admin(req) && req.httpMethod == "GET"
    ensures var (reply, store') := HandleAdminPolls(store, req, env);
            && store' == store
            && (env.storeUp ==> reply.status == Ok200 && reply.body.Payload? && reply.body.value.PollList?
                                && multiset(reply.body.value.polls) == multiset(store)
                                && forall i, j :: 0 <= i < j < |reply.body.value.polls| ==>
                                     reply.body.value.polls[i].createdAt >= reply.body.value.polls[j].createdAt)
            && (!env.storeUp ==> reply == Reply(ServerError, MessageBody("Failed to fetch polls")))
  {
    var polls := ListPolls(store);
    assert SortedBy(polls, CreatedAtRank);
    forall i, j | 0 <= i < j < |polls| ensures polls[i].createdAt >= polls[j].createdAt {
      assert CreatedAtRank(polls[i]) >= CreatedAtRank(polls[j]);
    }
  }

  /** Nothing but a 201 changes the store, and a 201 appends one poll. */
  lemma OnlyCreationChangesStore(store: Store, req: Request, env: Env)
    ensures var (reply, store') := HandleAdminPolls(store, req, env);
            || (store' == store && reply.status != Created201)
            || (reply.status == Created201 && |store'| == |store| + 1 && store'[..|store|] == store)
  {
    var (reply, store') := HandleAdminPolls(store, req, env);
    if reply.status == Created201 {
      CreateAppendsOne(store, req, env);
    }
  }

  lemma AppendUniqueCodes(store: Store, p: Poll)
    requires UniqueCodes(store) && p.code !in Codes(store)
    ensures UniqueCodes(store + [p])
  {
    var s := store + [p];
    forall i, j | 0 <= i < j < |s| ensures s[i].code != s[j].code {
      assert s[i] == store[i];
      if j < |store| {
        assert s[j] == store[j];
      } else {
        assert store[i] in store;
      }
    }
  }

  lemma AppendAllValid(store: Store, p: Poll)
    requires AllValid(store) && ValidPoll(p)
    ensures AllValid(store + [p])
  {
    var s := store + [p];
    forall i | 0 <= i < |s| ensures ValidPoll(s[i]) {
      if i < |store| {
        assert s[i] == store[i];
      }
    }
  }

  lemma AppendValid(store: Store, p: Poll)
    requires StoreInvariant(store) && ValidPoll(p) && p.code !in Codes(store)
    ensures StoreInvariant(store + [p])
  {
    AppendAllValid(store, p);
    AppendUniqueCodes(store, p);
  }

  /** Only an admin's POST can create a poll. */
  lemma CreatedNeedsAdminPost(store: Store, req: Request, env: Env)
    requires HandleAdminPolls(store, req, env).0.status == Created201
    ensures Admin(req) && req.httpMethod == "POST"
  {
  }

  /** The poll a successful POST appends is valid. */
  lemma CreatedPollValid(store: Store, req: Request, env: Env)
    requires Admin(req) && req.httpMethod == "POST"
    requires HandleAdminPolls(store, req, env).0.status == Created201
    ensures |HandleAdminPolls(store, req, env).1| == |store| + 1
    ensures ValidPoll(HandleAdminPolls(store, req, env).1[|store|])
  {
    CreatedIff(store, req, env);
    CreateAppendsOne(store, req, env);
    var q := Trim(req.body.question.text);
    assert Trimmed(q);
  }

  /** Every request keeps the store valid: questions trimmed and non-empty,
      codes well-formed and unique. */
  lemma PreservesInvariant(store: Store, req: Request, env: Env)
    requires StoreInvariant(store)
    ensures StoreInvariant(HandleAdminPolls(store, req, env).1)
  {
    var r := HandleAdminPolls(store, req, env);
    OnlyCreationChangesStore(store, req, env);
    if r.0.status == Created201 {
      CreatedNeedsAdminPost(store, req, env);
      CreateAppendsOne(store, req, env);
      CreatedPollValid(store, req, env);
      var p := r.1[|store|];
      assert r.1 == r.1[..|store|] + [p];
      AppendValid(store, p);
    }
  }

  /** Requests served one after another, each with its own environment. */
  function Serve(store: Store, steps: seq<(Request, Env)>): (r: (seq<Reply<Payload>>, Store))
    decreases |steps|
  {
    if steps == [] then ([], store)
    else
      var first := HandleAdminPolls(store, steps[0].0, steps[0].1);
      var rest := Serve(first.1, steps[1..]);
      ([first.0] + rest.0, rest.1)
  }

  function CreatedCount(replies: seq<Reply<Payload>>): nat {
    if replies == [] then 0
    else (if replies[0].status == Created201 then 1 else 0) + CreatedCount(replies[1..])
  }

  /** Any sequence of requests keeps the store valid, only appends to it,
      and appends one poll per 201 reply. */
  lemma {:induction false} ServeKeepsInvariant(store: Store, steps: seq<(Request, Env)>)
    requires StoreInvariant(store)
    ensures StoreInvariant(Serve(store, steps).1)
    ensures store <= Serve(store, steps).1
    ensures |Serve(store, steps).1| == |store| + CreatedCount(Serve(store, steps).0)
    decreases |steps|
  {
    if steps != [] {
      var first := HandleAdminPolls(store, steps[0].0, steps[0].1);
      PreservesInvariant(store, steps[0].0, steps[0].1);
      OnlyCreationChangesStore(store, steps[0].0, steps[0].1);
      ServeKeepsInvariant(first.1, steps[1..]);
      var rest := Serve(first.1, steps[1..]);
      assert Serve(store, steps) == ([first.0] + rest.0, rest.1);
      assert ([first.0] + rest.0)[1..] == rest.0;
    }
  }
}

=== FILE: ai_summary.dfy ===
/** `generateAISummary`: a fixed sentence for no responses, otherwise a
    report of how many responses there are, their average length, and up
    to three of them picked at random (with repetition: every pick is an
    independent draw). */
module AiSummary {
  import opened RandomSource
  import opened JsNumbers
  import opened JsText

  const NoResponsesText: string := "No responses to summarize."

  const MaxSamples: nat := 3

  datatype Summary =
    | NoResponses
    | Report(responseCount: nat, averageLength: nat, samples: seq<string>)

  function Min(a: nat, b: nat): nat {
    if a <= b then a else b
  }

  /** Code points above U+FFFF. */
  predicate IsAstral(c: char) {
    c as int > 0xFFFF
  }

  /** `text.length`: UTF-16 code units, two for a code point above U+FFFF. */
  function Utf16Length(s: string): (n: nat)
    ensures |s| <= n <= 2 * |s|
    ensures (forall i :: 0 <= i < |s| ==> !IsAstral(s[i])) ==> n == |s|
  {
    if s == [] then 0
    else (if IsAstral(s[0]) then 2 else 1) + Utf16Length(s[1..])
  }

  /** The summed lengths of the texts (the `reduce` call). */
  function TotalLength(texts: seq<string>): (total: nat)
    ensures forall i :: 0 <= i < |texts| ==> Utf16Length(texts[i]) <= total
    ensures total == 0 <==> forall i :: 0 <= i < |texts| ==> texts[i] == ""
  {
    if texts == [] then 0 else Utf16Length(texts[0]) + TotalLength(texts[1..])
  }

  /** `Math.round(total / n)`: the nearest integer, halves rounded up. */
  function RoundedAverage(total: nat, n: nat): (a: nat)
    requires n > 0
    ensures 2 * n * a <= 2 * total + n < 2 * n * (a + 1)
  {
    (2 * total + n) / (2 * n)
  }

  /** The `i`-th sample: the response at `Math.floor(Math.random() * n)`. */
  function Sample(texts: seq<string>, draws: Draws, i: nat): (t: string)
    requires texts != []
    ensures t in texts
  {
    texts[ScaledIndex(draws(i), |texts|)]
  }

  /** `generateAISummary(texts)` with `Math.random()` read from `draws`,
      before it is rendered as text. */
  function Summarize(texts: seq<string>, draws: Draws): (r: Summary)
    ensures r.NoResponses? <==> texts == []
    ensures r.Report? ==> r.responseCount == |texts|
    ensures r.Report? ==> |r.samples| == Min(MaxSamples, |texts|)
    ensures r.Report? ==> forall i :: 0 <= i < |r.samples| ==> r.samples[i] in texts
  {
    if |texts| == 0 then NoResponses
    else
      var n := Min(MaxSamples, |texts|);
      Report(|texts|, RoundedAverage(TotalLength(texts), |texts|),
             seq(n, i requires 0 <= i < n => Sample(texts, draws, i)))
  }

  const ReportOpening: string := "This poll received "

  /** A sample as the report lists it, in double quotes. */
  function Quoted(t: string): string {
    "\"" + t + "\""
  }

  function QuotedAll(samples: seq<string>): (r: seq<string>)
    ensures |r| == |samples|
  {
    seq(|samples|, i requires 0 <= i < |samples| => Quoted(samples[i]))
  }

  const AverageLead: string := " responses. The average response length was "

  const SamplesLead: string := " characters. \n  \nHere are some sample responses:\n"

  const Closing: string := "\n\nIn a production environment, this would be replaced with an actual AI-generated summary using a service like OpenAI's GPT."

  /** What follows the number of responses in a report. */
  function ReportTail(average: nat, samples: seq<string>): (t: string)
    ensures t != [] && t[0] == ' '
  {
    var t := AverageLead + (Decimal(average) + SamplesLead + Join(QuotedAll(samples), "\n") + Closing);
    assert t[0] == AverageLead[0];
    t
  }

  /** The text `generateAISummary` returns for a summary. */
  function Render(s: Summary): (t: string)
    ensures s.NoResponses? <==> t == NoResponsesText
    ensures s.Report? ==> |ReportOpening| < |t| && t[..|ReportOpening|] == ReportOpening
  {
    match s
    case NoResponses => NoResponsesText
    case Report(count, average, samples) =>
      var t := ReportOpening + Decimal(count) + ReportTail(average, samples);
      assert t[0] != NoResponsesText[0];
      t
  }

  /** `generateAISummary(texts)`. */
  function GenerateAISummary(texts: seq<string>, draws: Draws): (t: string)
    ensures t == NoResponsesText <==> texts == []
  {
    Render(Summarize(texts, draws))
  }

  /** The sampling loop as written: `min(3, n)` iterations, each pushing
      one drawn response. */
  method ComputeSamples(texts: seq<string>, draws: Draws) returns (samples: seq<string>)
    requires texts != []
    ensures Summarize(texts, draws).samples == samples
  {
    var sampleSize := Min(MaxSamples, |texts|);
    samples := [];
    var i := 0;
    while i < sampleSize
      invariant 0 <= i <= sampleSize
      invariant |samples| == i
      invariant forall m :: 0 <= m < i ==> samples[m] == Sample(texts, draws, m)
    {
      samples := samples + [Sample(texts, draws, i)];
      i := i + 1;
    }
  }

  /** With no responses the summary is exactly the fixed sentence. */
  lemma EmptyInputText(draws: Draws)
    ensures GenerateAISummary([], draws) == "No responses to summarize."
  {
  }

  lemma RenderedCount(count: nat, average: nat, samples: seq<string>)
    ensures var t := Render(Report(count, average, samples));
            DecimalValue(LeadingDigits(t[|ReportOpening|..])) == count
  {
    var digits, rest := Decimal(count), ReportTail(average, samples);
    var t := Render(Report(count, average, samples));
    assert t == ReportOpening + digits + rest;
    assert t[|ReportOpening|..] == digits + rest;
    DecimalReadsBack(count, rest);
  }

  /** Reading the number after the opening words of a report gives back
      the number of responses. */
  lemma ReportCountReadsBack(texts: seq<string>, draws: Draws)
    requires texts != []
    ensures var t := GenerateAISummary(texts, draws);
            DecimalValue(LeadingDigits(t[|ReportOpening|..])) == |texts|
  {
    var s := Summarize(texts, draws);
    RenderedCount(s.responseCount, s.averageLength, s.samples);
  }

  lemma {:induction false} TotalOfEqualLengths(texts: seq<string>, len: nat)
    requires forall i :: 0 <= i < |texts| ==> Utf16Length(texts[i]) == len
    ensures TotalLength(texts) == |texts| * len
  {
    if texts != [] {
      TotalOfEqualLengths(texts[1..], len);
      MulSucc(|texts[1..]|, len);
    }
  }

  lemma MulSucc(m: nat, k: nat)
    ensures (m + 1) * k == m * k + k
  {
  }

  lemma MulAssoc(n: nat, k: nat)
    ensures 2 * (n * k) == (2 * n) * k
  {
  }

  lemma MulMonotone(k: nat, x: nat, y: nat)
    requires x <= y
    ensures k * x <= k * y
  {
  }

  lemma MulCancel(k: nat, x: nat, y: nat)
    requires k * x < k * y
    ensures x < y
  {
    if x >= y {
      MulMonotone(k, y, x);
    }
  }

  /** When every response has the same length, that is the reported
      average. */
  lemma EqualLengthsAverage(texts: seq<string>, draws: Draws, len: nat)
    requires texts != []
    requires forall i :: 0 <= i < |texts| ==> Utf16Length(texts[i]) == len
    ensures Summarize(texts, draws).averageLength == len
  {
    TotalOfEqualLengths(texts, len);
    var n, a := |texts|, Summarize(texts, draws).averageLength;
    var q := 2 * n;
    MulAssoc(n, len);
    MulSucc(len, q);
    assert q * (len + 1) == (len + 1) * q;
    MulCancel(q, a, len + 1);
    MulCancel(q, len, a + 1);
  }

  /** A single response is the only possible sample. */
  lemma SingleResponse(text: string, draws: Draws)
    ensures Summarize([text], draws).samples == [text]
  {
    var r := Summarize([text], draws);
    assert r.samples[0] in [text];
  }

  /** Which responses are drawn depends only on the number of responses
      and the draws, not on what the responses say. */
  lemma SamplePositions(texts: seq<string>, texts': seq<string>, draws: Draws, i: nat)
    requires |texts| == |texts'| > 0
    requires i < Min(MaxSamples, |texts|)
    ensures exists k :: 0 <= k < |texts| && Summarize(texts, draws).samples[i] == texts[k]
                        && Summarize(texts', draws).samples[i] == texts'[k]
  {
    var k := ScaledIndex(draws(i), |texts|);
    assert Summarize(texts, draws).samples[i] == texts[k];
    assert Summarize(texts', draws).samples[i] == texts'[k];
  }
}

=== FILE: auth.dfy ===
/** The admin guard that wraps the admin API handlers: a request without
    the admin cookie is refused with 401 before the handler runs. */
module Auth {

  /** The name and value of the cookie that login sets. */
  const AdminCookie: string := "admin_token"
  const AdminCookieValue: string := "authenticated"

  /** The JSON body of a reply: `{ message }` or a payload. */
  datatype Body<+P> = MessageBody(message: string) | Payload(value: P)

  /** `res.status(status).json(body)`. */
  datatype Reply<+P> = Reply(status: nat, body: Body<P>)

  const Unauthorized: nat := 401

  /** `isAdmin(req)`, on the request's parsed cookies. */
  predicate IsAdmin(cookies: map<string, string>) {
    AdminCookie in cookies && cookies[AdminCookie] == AdminCookieValue
  }

  /** `withAdminAuth(handler)` applied to a request with `cookies`, the
      handler being a transition of state `S`. */
  function WithAdminAuth<S, P>(cookies: map<string, string>, state: S, handler: S -> (Reply<P>, S)): (r: (Reply<P>, S))
    ensures !IsAdmin(cookies) ==> r.0 == Reply(Unauthorized, MessageBody("Unauthorized")) && r.1 == state
    ensures IsAdmin(cookies) ==> r == handler(state)
  {
    if !IsAdmin(cookies) then (Reply(Unauthorized, MessageBody("Unauthorized")), state)
    else handler(state)
  }
}

=== FILE: counting_as_written.dfy ===
/** The counting loop of `generateWordFrequencies` on a plain JavaScript
    object, inherited properties included. Two lower-case words name
    properties every object inherits: `constructor` (a function, so truthy)
    and `__proto__` (the prototype, an object, whose setter ignores
    numbers). The first is counted one short, the second never stored; the
    rest of the model counts with a plain map instead. */
module CountingAsWritten {
  import opened WordFrequencies

  /** The values `wordFrequencies[word]` can have. */
  datatype JsValue = Undefined | Number(n: nat) | NaN | Inherited

  type Counts = map<string, JsValue>

  /** The lower-case names of properties of Object.prototype. */
  predicate IsInheritedName(w: string) {
    w == "constructor" || w == "__proto__"
  }

  /** `wordFrequencies[w]`: an own property, else an inherited one. */
  function Get(counts: Counts, w: string): JsValue {
    if w in counts then counts[w]
    else if IsInheritedName(w) then Inherited
    else Undefined
  }

  predicate Truthy(v: JsValue) {
    (v.Number? && v.n != 0) || v.Inherited?
  }

  /** `v + 1`: a function or an object converts to NaN. */
  function Increment(v: JsValue): JsValue {
    if v.Number? then Number(v.n + 1) else NaN
  }

  /** `wordFrequencies[w] = v`: assigning a number to `__proto__` is
      ignored. */
  function Set(counts: Counts, w: string, v: JsValue): Counts {
    if w == "__proto__" then counts else counts[w := v]
  }

  /** One iteration of the loop. */
  function CountStep(counts: Counts, w: string): (r: Counts)
    ensures w == "__proto__" ==> r == counts
    ensures w != "__proto__" ==> r.Keys == counts.Keys + {w}
    ensures forall k :: k in counts && k != w ==> r[k] == counts[k]
    ensures w != "__proto__" && w in counts && counts[w].Number? && counts[w].n > 0 ==> r[w] == Number(counts[w].n + 1)
    ensures !IsInheritedName(w) && (w !in counts || counts[w] == Number(0)) ==> r[w] == Number(1)
    ensures w == "constructor" && w !in counts ==> r[w] == NaN
  {
    if Truthy(Get(counts, w)) then Set(counts, w, Increment(Get(counts, w)))
    else Set(counts, w, Number(1))
  }

  /** The object after the loop has run over `words`. */
  function CountAsWritten(words: seq<string>): (r: Counts)
    ensures "__proto__" !in r
    ensures forall w :: w in r ==> w in words
  {
    if words == [] then map[]
    else CountStep(CountAsWritten(words[..|words| - 1]), words[|words| - 1])
  }

  /** For every other word the loop counts what the model counts. */
  lemma {:induction false} AsWrittenAgrees(words: seq<string>, w: string)
    requires !IsInheritedName(w)
    ensures w in CountAsWritten(words) <==> w in words
    ensures w in words ==> CountAsWritten(words)[w] == Number(Occurrences(words, w))
  {
    if words != [] {
      var init := words[..|words| - 1];
      AsWrittenAgrees(init, w);
      assert words == init + [words[|words| - 1]];
      assert w in words <==> w in init || w == words[|words| - 1];
    }
  }

  /** `constructor` is counted one short: its first occurrence stores NaN,
      the second restarts the count at 1. */
  lemma {:induction false} ConstructorOneShort(words: seq<string>)
    ensures var n := Occurrences(words, "constructor");
            && ("constructor" in CountAsWritten(words) <==> n > 0)
            && (n == 1 ==> CountAsWritten(words)["constructor"] == NaN)
            && (n >= 2 ==> CountAsWritten(words)["constructor"] == Number(n - 1))
  {
    if words != [] {
      var init, last := words[..|words| - 1], words[|words| - 1];
      ConstructorOneShort(init);
      assert words == init + [last];
      assert multiset(words) == multiset(init) + multiset{last};
    }
  }

  /** Three occurrences of `constructor` are counted as two. */
  lemma ConstructorUndercounted()
    ensures Occurrences(["constructor", "constructor", "constructor"], "constructor") == 3
    ensures CountAsWritten(["constructor", "constructor", "constructor"])["constructor"] == Number(2)
  {
    var w := "constructor";
    assert [w, w, w][..2] == [w, w];
    assert [w, w][..1] == [w];
    assert [w][..0] == [];
    assert CountAsWritten([w]) == map[w := NaN];
    assert CountAsWritten([w, w]) == map[w := Number(1)];
    assert multiset([w, w, w])[w] == 3;
  }

  /** `__proto__` is never stored, however often it occurs. */
  lemma {:induction false} ProtoNeverStored(words: seq<string>)
    ensures "__proto__" !in CountAsWritten(words)
  {
    if words != [] {
      ProtoNeverStored(words[..|words| - 1]);
    }
  }
}

=== FILE: js_numbers.dfy ===
/** Decimal digits: the value a digit string denotes, and the string
    `String(n)` gives for a non-negative integer. */
module JsNumbers {

  predicate IsDigit(c: char) {
    '0' <= c <= '9'
  }

  predicate AllDigits(s: string) {
    forall i :: 0 <= i < |s| ==> IsDigit(s[i])
  }

  /** The number a string of decimal digits denotes. */
  function DecimalValue(s: string): nat {
    if s == [] then 0
    else
      var c := s[|s| - 1];
      DecimalValue(s[..|s| - 1]) * 10 + (if IsDigit(c) then c as int - '0' as int else 0)
  }

  function DigitChar(d: nat): (c: char)
    requires d < 10
    ensures IsDigit(c) && c as int - '0' as int == d
  {
    ('0' as int + d) as char
  }

  /** `String(n)`: the canonical decimal form, which reads back as `n`. */
  function Decimal(n: nat): (s: string)
    ensures s != [] && AllDigits(s)
    ensures s[0] != '0' || s == "0"
    ensures DecimalValue(s) == n
  {
    if n < 10 then [DigitChar(n)]
    else
      var s := Decimal(n / 10) + [DigitChar(n % 10)];
      assert s[..|s| - 1] == Decimal(n / 10);
      s
  }

  /** The longest prefix of digits: what `parseInt` reads. */
  function LeadingDigits(s: string): (r: string)
    ensures AllDigits(r) && r <= s
    ensures |r| < |s| ==> !IsDigit(s[|r|])
  {
    if s == [] || !IsDigit(s[0]) then []
    else [s[0]] + LeadingDigits(s[1..])
  }

  /** Digits followed by a non-digit are read back as they are. */
  lemma {:induction false} LeadingDigitsOf(d: string, rest: string)
    requires AllDigits(d)
    requires rest == [] || !IsDigit(rest[0])
    ensures LeadingDigits(d + rest) == d
  {
    if d != [] {
      assert (d + rest)[1..] == d[1..] + rest;
      LeadingDigitsOf(d[1..], rest);
    } else {
      assert d + rest == rest;
    }
  }

  /** `parseInt(String(n) + rest)` is `n` when `rest` does not start with a
      digit. */
  lemma DecimalReadsBack(n: nat, rest: string)
    requires rest == [] || !IsDigit(rest[0])
    ensures DecimalValue(LeadingDigits(Decimal(n) + rest)) == n
  {
    LeadingDigitsOf(Decimal(n), rest);
  }
}

=== FILE: js_objects.dfy ===
/** The order in which Object.entries lists the keys of an ordinary
    JavaScript object: the OrdinaryOwnPropertyKeys operation of ECMA-262
    (section 10.1.11.1 of the 2022 edition). Keys that are array indices
    come first in ascending numeric order; the other string keys follow in
    the order they were created. */
module JsObjects {
  import opened Seqs
  import opened StableSort
  import opened JsNumbers

  /** 2^32 - 1: the array indices are the integers below it. */
  const ArrayIndexLimit: int := 0x1_0000_0000 - 1

  /** A key is an array index when it is the canonical decimal form of an
      integer below 2^32 - 1 (section 6.1.7 of ECMA-262): digits only, no
      leading zero unless it is "0" itself. */
  predicate IsArrayIndex(k: string) {
    && k != []
    && (forall i :: 0 <= i < |k| ==> IsDigit(k[i]))
    && (k[0] != '0' || |k| == 1)
    && DecimalValue(k) < ArrayIndexLimit
  }

  function IsIndexKey<T>(key: T -> string): T -> bool {
    x => IsArrayIndex(key(x))
  }

  function IsOtherKey<T>(key: T -> string): T -> bool {
    x => !IsArrayIndex(key(x))
  }

  /** Ranks array indices so that the smallest comes first. */
  function IndexRank<T>(key: T -> string): T -> int {
    x => -(DecimalValue(key(x)) as int)
  }

  /** The enumeration order of the properties `s`, listed in creation
      order, whose keys `key` gives. */
  function OwnKeysOrder<T(==)>(s: seq<T>, key: T -> string): (r: seq<T>)
    ensures multiset(r) == multiset(s)
    ensures forall i, j :: 0 <= i < j < |r| && IsArrayIndex(key(r[j])) ==>
              IsArrayIndex(key(r[i])) && DecimalValue(key(r[i])) <= DecimalValue(key(r[j]))
    ensures Filter(r, IsOtherKey(key)) == Filter(s, IsOtherKey(key))
  {
    var indices := Filter(s, IsIndexKey(key));
    var others := Filter(s, IsOtherKey(key));
    var sorted := SortBy(indices, IndexRank(key));
    FilterComplement(s, IsIndexKey(key), IsOtherKey(key));
    IndicesFirst(sorted, others, key, indices);
    FilterNone(sorted, IsOtherKey(key));
    FilterAll(others, IsOtherKey(key));
    FilterConcat(sorted, others, IsOtherKey(key));
    sorted + others
  }

  lemma IndicesFirst<T>(sorted: seq<T>, others: seq<T>, key: T -> string, indices: seq<T>)
    requires multiset(sorted) == multiset(indices)
    requires SortedBy(sorted, IndexRank(key))
    requires forall i :: 0 <= i < |indices| ==> IsArrayIndex(key(indices[i]))
    requires forall i :: 0 <= i < |others| ==> !IsArrayIndex(key(others[i]))
    ensures forall i :: 0 <= i < |sorted| ==> IsArrayIndex(key(sorted[i]))
    ensures forall i, j :: 0 <= i < j < |sorted + others| && IsArrayIndex(key((sorted + others)[j])) ==>
              IsArrayIndex(key((sorted + others)[i]))
              && DecimalValue(key((sorted + others)[i])) <= DecimalValue(key((sorted + others)[j]))
  {
    forall i | 0 <= i < |sorted| ensures IsArrayIndex(key(sorted[i])) {
      assert sorted[i] in multiset(indices);
      var k :| 0 <= k < |indices| && indices[k] == sorted[i];
    }
    var r := sorted + others;
    forall i, j | 0 <= i < j < |r| && IsArrayIndex(key(r[j]))
      ensures IsArrayIndex(key(r[i])) && DecimalValue(key(r[i])) <= DecimalValue(key(r[j]))
    {
      assert r[i] == sorted[i] && r[j] == sorted[j];
      assert IndexRank(key)(sorted[i]) >= IndexRank(key)(sorted[j]);
    }
  }
}

=== FILE: js_text.dfy ===
/** The JavaScript string operations the repository relies on, on strings
    of Unicode scalar values:

    - `\s` and `\w` in a regular expression without the `u` flag;
    - String.prototype.toLowerCase, on ASCII letters;
    - Array.prototype.join, String.prototype.split(/\s+/) and
      String.prototype.trim. */
module JsText {
  import opened Seqs

  /** `\s`, and the code points trim removes: ECMAScript WhiteSpace (TAB,
      VT, FF, ZWNBSP and the Unicode Zs category) and LineTerminator (LF,
      CR, LS, PS). */
  predicate IsSpace(c: char) {
    var n := c as int;
    n == 0x20 || 0x09 <= n <= 0x0D || n == 0xA0 || n == 0x1680
    || 0x2000 <= n <= 0x200A || n == 0x2028 || n == 0x2029 || n == 0x202F
    || n == 0x205F || n == 0x3000 || n == 0xFEFF
  }

  /** `\w`: ASCII letters, digits and underscore. */
  predicate IsWordChar(c: char) {
    'a' <= c <= 'z' || 'A' <= c <= 'Z' || '0' <= c <= '9' || c == '_'
  }

  /** What `\w` matches once the text has been lower-cased. */
  predicate IsLowerWordChar(c: char) {
    'a' <= c <= 'z' || '0' <= c <= '9' || c == '_'
  }

  predicate NoSpace(s: string) {
    forall i :: 0 <= i < |s| ==> !IsSpace(s[i])
  }

  predicate AllSpace(s: string) {
    forall i :: 0 <= i < |s| ==> IsSpace(s[i])
  }

  const UpperLetters: string := "ABCDEFGHIJKLMNOPQRSTUVWXYZ"
  const LowerLetters: string := "abcdefghijklmnopqrstuvwxyz"

  /** toLowerCase of one character, for ASCII letters (`ToLowerLetters`
      states which character each one becomes). */
  function ToLower(c: char): (d: char)
    ensures !('A' <= d <= 'Z')
    ensures IsWordChar(c) <==> IsWordChar(d)
    ensures IsSpace(c) <==> IsSpace(d)
    ensures 'a' <= c <= 'z' || !IsWordChar(c) ==> d == c
  {
    if 'A' <= c <= 'Z' then (c as int + 32) as char else c
  }

  /** An upper-case letter becomes the lower-case letter at the same place
      in the alphabet, and every other character is left as it is. */
  lemma ToLowerLetters(c: char)
    ensures forall k :: 0 <= k < |UpperLetters| && c == UpperLetters[k] ==> ToLower(c) == LowerLetters[k]
    ensures c !in UpperLetters ==> ToLower(c) == c
  {
  }

  function Lower(s: string): (r: string)
    ensures |r| == |s|
  {
    Map(s, ToLower)
  }

  /** The characters `[^\w\s]` does not match. */
  predicate IsWordOrSpace(c: char) {
    IsWordChar(c) || IsSpace(c)
  }

  /** `s.replace(/[^\w\s]/g, '')`. */
  function StripNonWord(s: string): (r: string)
    ensures forall i :: 0 <= i < |r| ==> IsWordOrSpace(r[i])
  {
    Filter(s, IsWordOrSpace)
  }

  /** Stripping keeps every word character and whitespace character of
      the text and drops every other character. */
  lemma StripKeepsWordChars(s: string, c: char)
    ensures c in StripNonWord(s) <==> c in s && IsWordOrSpace(c)
  {
    FilterMembers(s, IsWordOrSpace, c);
  }

  /** Lower-case, then drop every character that is neither a word
      character nor whitespace. */
  function Normalize(s: string): (r: string)
    ensures forall i :: 0 <= i < |r| ==> IsLowerWordChar(r[i]) || IsSpace(r[i])
  {
    var lowered := Lower(s);
    var r := StripNonWord(lowered);
    forall i | 0 <= i < |r| ensures r[i] in lowered {
      FilterMembers(lowered, IsWordOrSpace, r[i]);
    }
    r
  }

  /** The two steps of `Normalize` commute, so its result is every word
      character and whitespace character of `s`, in order, lower-cased. */
  lemma NormalizeKeepsWordChars(s: string)
    ensures Normalize(s) == Lower(StripNonWord(s))
  {
    LowerStripCommute(s);
  }

  /** Lower-casing keeps a character a word character or whitespace, or
      keeps it neither, so it may come before or after the stripping. */
  lemma {:induction false} LowerStripCommute(s: string)
    ensures StripNonWord(Lower(s)) == Lower(StripNonWord(s))
  {
    if s != [] {
      var c, t := s[0], s[1..];
      var h := if IsWordOrSpace(c) then [c] else [];
      var hl := if IsWordOrSpace(c) then [ToLower(c)] else [];
      LowerStripCommute(t);
      assert Lower(s) == [ToLower(c)] + Lower(t) by {
        MapCons(s, ToLower);
      }
      assert StripNonWord(s) == h + StripNonWord(t) by {
        assert s == [c] + t;
        FilterCons(c, t, IsWordOrSpace);
      }
      assert Lower(h) == hl by {
        if h != [] {
          MapCons(h, ToLower);
          assert h[1..] == [];
        }
      }
      calc {
        StripNonWord(Lower(s));
        { FilterCons(ToLower(c), Lower(t), IsWordOrSpace); }
        hl + StripNonWord(Lower(t));
        hl + Lower(StripNonWord(t));
        { MapConcat(h, StripNonWord(t), ToLower); }
        Lower(h + StripNonWord(t));
      }
    }
  }

  /** `texts.join(sep)`. */
  function Join(texts: seq<string>, sep: string): string {
    if |texts| == 0 then ""
    else if |texts| == 1 then texts[0]
    else texts[0] + sep + Join(texts[1..], sep)
  }

  /** The index of the first whitespace character, or `|s|`. */
  function FirstSpace(s: string): (i: nat)
    ensures i <= |s|
    ensures NoSpace(s[..i])
    ensures i < |s| ==> IsSpace(s[i])
  {
    if s == [] || IsSpace(s[0]) then 0
    else
      var k := FirstSpace(s[1..]);
      assert s[..k + 1] == [s[0]] + s[1..][..k];
      1 + k
  }

  /** The end of the whitespace run that starts at `i`. */
  function SpaceRunEnd(s: string, i: nat): (j: nat)
    requires i <= |s|
    ensures i <= j <= |s|
    ensures AllSpace(s[i..j])
    ensures j < |s| ==> !IsSpace(s[j])
    decreases |s| - i
  {
    if i < |s| && IsSpace(s[i]) then SpaceRunEnd(s, i + 1) else i
  }

  /** `s.split(/\s+/)`: the pieces between maximal whitespace runs; a
      leading or trailing run gives an empty first or last piece, and the
      empty string splits into one empty piece. */
  function Split(s: string): (r: seq<string>)
    ensures |r| >= 1
    ensures forall k :: 0 <= k < |r| ==> NoSpace(r[k])
    ensures forall k :: 0 < k < |r| - 1 ==> r[k] != ""
    ensures s != [] && !IsSpace(s[0]) ==> r[0] != ""
    ensures s != [] && !IsSpace(s[|s| - 1]) ==> r[|r| - 1] != ""
    decreases |s|
  {
    var i := FirstSpace(s);
    if i == |s| then [s]
    else
      var j := SpaceRunEnd(s, i);
      var rest := Split(s[j..]);
      assert s[j..] == [] ==> rest == [""];
      assert j == |s| ==> IsSpace(s[|s| - 1]) by {
        if j == |s| {
          assert s[i..j][j - 1 - i] == s[j - 1];
        }
      }
      [s[..i]] + rest
  }

  /** The pieces between single whitespace characters, as `s.split(/\s/)`
      would give; used to reason about `Split`. */
  function Fields(s: string): (r: seq<string>)
    ensures |r| >= 1
    decreases |s|
  {
    if s == [] then [""]
    else
      var rest := Fields(s[1..]);
      if IsSpace(s[0]) then [""] + rest else [[s[0]] + rest[0]] + rest[1..]
  }

  /** `s.trim()`: `TrimStart` and `TrimEnd` remove exactly the leading and
      the trailing whitespace. */
  function Trim(s: string): (r: string)
    ensures r == [] || (!IsSpace(r[0]) && !IsSpace(r[|r| - 1]))
    ensures r == [] <==> AllSpace(s)
  {
    var t := TrimStart(s);
    var r := TrimEnd(t);
    TrimEmpty(s, t, r);
    r
  }

  lemma TrimEmpty(s: string, t: string, r: string)
    requires t == TrimStart(s) && r == TrimEnd(t)
    ensures r == [] <==> AllSpace(s)
  {
    if r == [] {
      assert t[|r|..] == t;
      assert s == s[..|s| - |t|] + t;
      AllSpaceConcat(s[..|s| - |t|], t);
    }
  }

  lemma AllSpaceConcat(a: string, b: string)
    requires AllSpace(a) && AllSpace(b)
    ensures AllSpace(a + b)
  {
    forall k | 0 <= k < |a + b| ensures IsSpace((a + b)[k]) {
      if k < |a| {
        assert (a + b)[k] == a[k];
      } else {
        assert (a + b)[k] == b[k - |a|];
      }
    }
  }

  /** Without the leading whitespace. */
  function TrimStart(s: string): (r: string)
    ensures |r| <= |s| && r == s[|s| - |r|..]
    ensures AllSpace(s[..|s| - |r|])
    ensures r == [] || !IsSpace(r[0])
  {
    if s != [] && IsSpace(s[0]) then
      var r := TrimStart(s[1..]);
      assert s[..|s| - |r|] == [s[0]] + s[1..][..|s| - 1 - |r|];
      r
    else s
  }

  function TrimEnd(s: string): (r: string)
    ensures |r| <= |s| && r == s[..|r|]
    ensures AllSpace(s[|r|..])
    ensures r == [] || !IsSpace(r[|r| - 1])
  {
    if s != [] && IsSpace(s[|s| - 1]) then
      var r := TrimEnd(s[..|s| - 1]);
      assert s[|r|..] == s[..|s| - 1][|r|..] + [s[|s| - 1]];
      r
    else s
  }

  /** Trimming twice trims nothing more. */
  lemma TrimIdempotent(s: string)
    ensures Trim(Trim(s)) == Trim(s)
  {
    var r := Trim(s);
    assert TrimStart(r) == r;
    assert TrimEnd(r) == r;
  }

  /** The pieces of the normalised form of one text. */
  function NormalizedFields(t: string): seq<string> {
    Fields(Normalize(t))
  }

  lemma NormalizeConcat(a: string, b: string)
    ensures Normalize(a + b) == Normalize(a) + Normalize(b)
  {
    MapConcat(a, b, ToLower);
    FilterConcat(Lower(a), Lower(b), IsWordOrSpace);
  }

  lemma NormalizeSpace()
    ensures Normalize(" ") == " "
  {
    assert Lower(" ") == " ";
    assert Filter(" ", IsWordOrSpace) == [' '] + Filter(" "[1..], IsWordOrSpace);
  }

  /** `FirstSpace` is the one index with its three properties. */
  lemma {:induction false} FirstSpaceUnique(s: string, i: nat)
    requires i <= |s| && NoSpace(s[..i])
    requires i < |s| ==> IsSpace(s[i])
    ensures FirstSpace(s) == i
  {
    if i > 0 {
      assert s[..i][0] == s[0];
      assert s[1..][..i - 1] == s[..i][1..];
      FirstSpaceUnique(s[1..], i - 1);
    }
  }

  /** `Fields` one character at a time: whitespace starts a new piece... */
  lemma FieldsConsSpace(x: char, t: string)
    requires IsSpace(x)
    ensures Fields([x] + t) == [""] + Fields(t)
  {
    assert ([x] + t)[1..] == t;
  }

  /** ...and any other character extends the first one. */
  lemma FieldsConsWord(x: char, t: string)
    requires !IsSpace(x)
    ensures Fields([x] + t) == [[x] + Fields(t)[0]] + Fields(t)[1..]
  {
    assert ([x] + t)[1..] == t;
  }

  /** Splitting at single whitespace characters distributes over a
      whitespace separator. */
  lemma FieldsConcat(a: string, c: char, b: string)
    requires IsSpace(c)
    ensures Fields(a + [c] + b) == Fields(a) + Fields(b)
  {
    assert a + [c] + b == a + ([c] + b);
    FieldsSeparated(a, c, b);
  }

  lemma {:induction false} FieldsSeparated(a: string, c: char, b: string)
    requires IsSpace(c)
    ensures Fields(a + ([c] + b)) == Fields(a) + Fields(b)
    decreases |a|
  {
    if a == [] {
      assert a + ([c] + b) == [c] + b;
      FieldsConsSpace(c, b);
    } else {
      var x, a' := a[0], a[1..];
      assert a == [x] + a';
      ConsAppend(x, a', [c] + b);
      FieldsSeparated(a', c, b);
      var fa, fb := Fields(a'), Fields(b);
      if IsSpace(x) {
        FieldsConsSpace(x, a' + ([c] + b));
        FieldsConsSpace(x, a');
        ConsAppend("", fa, fb);
      } else {
        FieldsConsWord(x, a' + ([c] + b));
        FieldsConsWord(x, a');
        TailAppend(fa, fb);
        ConsAppend([x] + fa[0], fa[1..], fb);
      }
    }
  }

  /** The first piece runs up to the first whitespace character. */
  lemma {:induction false} FieldsAtFirstSpace(s: string)
    ensures FirstSpace(s) == |s| ==> Fields(s) == [s]
    ensures FirstSpace(s) < |s| ==> Fields(s) == [s[..FirstSpace(s)]] + Fields(s[FirstSpace(s) + 1..])
    decreases |s|
  {
    if s != [] {
      var x, t := s[0], s[1..];
      assert s == [x] + t;
      if IsSpace(x) {
        FieldsConsSpace(x, t);
        assert s[..0] == "";
      } else {
        FieldsConsWord(x, t);
        FieldsAtFirstSpace(t);
        var k := FirstSpace(t);
        if k == |t| {
          assert Fields(t)[1..] == [];
        } else {
          TailAppend([t[..k]], Fields(t[k + 1..]));
          assert s[..k + 1] == [x] + t[..k];
          assert s[k + 2..] == t[k + 1..];
        }
      }
    }
  }

  lemma FilterCons<T>(x: T, rest: seq<T>, p: T -> bool)
    ensures Filter([x] + rest, p) == (if p(x) then [x] else []) + Filter(rest, p)
  {
    assert ([x] + rest)[1..] == rest;
  }

  /** A whitespace prefix only contributes empty pieces. */
  lemma {:induction false} SkipSpacesFields(t: string, n: nat, p: string -> bool)
    requires n <= |t| && forall k :: 0 <= k < n ==> IsSpace(t[k])
    requires !p("")
    ensures Filter(Fields(t), p) == Filter(Fields(t[n..]), p)
    decreases n
  {
    if n > 0 {
      var u := t[1..];
      assert t == [t[0]] + u;
      FieldsConsSpace(t[0], u);
      FilterCons("", Fields(u), p);
      forall k | 0 <= k < n - 1 ensures IsSpace(u[k]) {
        assert u[k] == t[k + 1];
      }
      SkipSpacesFields(u, n - 1, p);
      assert u[n - 1..] == t[n..];
    }
  }

  /** One step of `Split`: the text before the first whitespace run, then
      the pieces after it. */
  lemma SplitStep(s: string)
    requires FirstSpace(s) < |s|
    ensures Split(s) == [s[..FirstSpace(s)]] + Split(s[SpaceRunEnd(s, FirstSpace(s))..])
  {
  }

  /** The characters between the first whitespace character and the end
      of its run are whitespace. */
  lemma SpaceRunRest(s: string, i: nat, j: nat, t: string)
    requires i < |s| && IsSpace(s[i]) && j == SpaceRunEnd(s, i) && t == s[i + 1..]
    ensures i < j
    ensures forall k :: 0 <= k < j - i - 1 ==> IsSpace(t[k])
    ensures t[j - i - 1..] == s[j..]
  {
    forall k | 0 <= k < j - i - 1 ensures IsSpace(t[k]) {
      assert t[k] == s[i..j][k + 1];
    }
  }

  /** Once empty pieces are dropped, `split(/\s+/)` and splitting at single
      whitespace characters give the same pieces. */
  lemma {:induction false} SplitFieldsAgree(s: string, p: string -> bool)
    requires !p("")
    ensures Filter(Split(s), p) == Filter(Fields(s), p)
    decreases |s|
  {
    var i := FirstSpace(s);
    if i < |s| {
      var j := SpaceRunEnd(s, i);
      var h := if p(s[..i]) then [s[..i]] else [];
      FilterSplitStep(s, p);
      FilterFieldsHead(s, p);
      SkipSpaceRun(s, i, p, h);
      SplitFieldsAgree(s[j..], p);
    } else {
      FieldsAtFirstSpace(s);
    }
  }

  /** The kept pieces of `Split(s)`: the first piece, if kept, then those
      after the first whitespace run. */
  lemma FilterSplitStep(s: string, p: string -> bool)
    requires FirstSpace(s) < |s|
    ensures var i := FirstSpace(s);
            Filter(Split(s), p)
            == (if p(s[..i]) then [s[..i]] else []) + Filter(Split(s[SpaceRunEnd(s, i)..]), p)
  {
    var i := FirstSpace(s);
    SplitStep(s);
    FilterCons(s[..i], Split(s[SpaceRunEnd(s, i)..]), p);
  }

  lemma FilterFieldsHead(s: string, p: string -> bool)
    requires FirstSpace(s) < |s|
    ensures var i := FirstSpace(s);
            Filter(Fields(s), p) == (if p(s[..i]) then [s[..i]] else []) + Filter(Fields(s[i + 1..]), p)
  {
    var i := FirstSpace(s);
    FieldsAtFirstSpace(s);
    FilterCons(s[..i], Fields(s[i + 1..]), p);
  }

  /** Past a whitespace character, the rest of its run adds only empty
      pieces, whatever kept pieces `h` come before them. */
  lemma SkipSpaceRun(s: string, i: nat, p: string -> bool, h: seq<string>)
    requires i < |s| && IsSpace(s[i]) && !p("")
    ensures h + Filter(Fields(s[i + 1..]), p) == h + Filter(Fields(s[SpaceRunEnd(s, i)..]), p)
  {
    var j := SpaceRunEnd(s, i);
    var t := s[i + 1..];
    SpaceRunRest(s, i, j, t);
    SkipSpacesFields(t, j - i - 1, p);
  }

  /** Every character of every piece of `s` has any property all of `s`'s
      characters have. */
  lemma {:induction false} SplitChars(s: string, ok: char -> bool)
    requires forall i :: 0 <= i < |s| ==> ok(s[i])
    ensures forall k, m :: 0 <= k < |Split(s)| && 0 <= m < |Split(s)[k]| ==> ok(Split(s)[k][m])
    decreases |s|
  {
    var i := FirstSpace(s);
    if i < |s| {
      var j := SpaceRunEnd(s, i);
      SplitChars(s[j..], ok);
      assert forall m :: 0 <= m < i ==> s[..i][m] == s[m];
    }
  }

  /** Joining with a space and then splitting gives the pieces of each
      text in turn: no piece spans two texts. */
  lemma {:induction false} JoinFields(texts: seq<string>)
    requires texts != []
    ensures Fields(Normalize(Join(texts, " "))) == FlatMap(texts, NormalizedFields)
  {
    if |texts| == 1 {
      assert FlatMap(texts, NormalizedFields) == NormalizedFields(texts[0]) + FlatMap(texts[1..], NormalizedFields);
      assert texts[1..] == [];
    } else {
      var rest := Join(texts[1..], " ");
      NormalizeConcat(texts[0] + " ", rest);
      NormalizeConcat(texts[0], " ");
      NormalizeSpace();
      FieldsConcat(Normalize(texts[0]), ' ', Normalize(rest));
      JoinFields(texts[1..]);
    }
  }
}

=== FILE: random_source.dfy ===
/** `Math.random()` as an input: a stream of draws from [0, 1), the i-th
    draw being the i-th call. Every random choice in the repository has the
    form `Math.floor(Math.random() * n)`, an index below `n`. */
module RandomSource {

  /** A value that `Math.random()` can return. */
  type Unit = r: real | 0.0 <= r < 1.0

  /** The successive results of `Math.random()`. */
  type Draws = nat -> Unit

  /** `Math.floor(u * n)`: the cell of [0, 1) cut into `n` equal cells that
      `u` falls in. */
  function ScaledIndex(u: Unit, n: nat): (i: nat)
    requires n > 0
    ensures i < n
    ensures i as real <= u * n as real < i as real + 1.0
  {
    var x := u * n as real;
    assert x < n as real;
    x.Floor
  }

  /** Every index below `n` is the result of some draw: no index is out of
      reach. */
  lemma EveryIndexReachable(n: nat, i: nat)
    requires i < n
    ensures ScaledIndex(i as real / n as real, n) == i
  {
    var u := i as real / n as real;
    assert u * n as real == i as real;
  }
}

=== FILE: results.dfy ===
/** The success-or-error value the modelled operations return instead of
    throwing, as the repository's async functions do. */
module Results {

  datatype Result<+T, +E> = Ok(value: T) | Err(error: E)
}

=== FILE: seqs.dfy ===
/** Sequence operations shared by the text pipeline, the ranking and the
    poll store: filtering, mapping, flattening, distinctness and the
    multiset facts that order-independence arguments rest on. */
module Seqs {

  /** The elements of `s` that satisfy `p`, in their original order
      (Array.prototype.filter). */
  function Filter<T(==)>(s: seq<T>, p: T -> bool): (r: seq<T>)
    ensures |r| <= |s|
    ensures forall i :: 0 <= i < |r| ==> r[i] in s && p(r[i])
  {
    if s == [] then []
    else (if p(s[0]) then [s[0]] else []) + Filter(s[1..], p)
  }

  /** The filter keeps exactly the elements of `s` that satisfy `p`. */
  lemma {:induction false} FilterMembers<T>(s: seq<T>, p: T -> bool, x: T)
    ensures x in Filter(s, p) <==> x in s && p(x)
  {
    if s != [] {
      FilterMembers(s[1..], p, x);
      assert s == [s[0]] + s[1..];
    }
  }

  /** A sequence holding exactly `a` and `b` lists them in one of the two
      orders. */
  lemma TwoElements<T>(r: seq<T>, a: T, b: T)
    requires multiset(r) == multiset{a, b}
    ensures r == [a, b] || r == [b, a]
  {
    assert |r| == |multiset{a, b}| == 2;
    assert r == [r[0], r[1]];
    assert r[0] in multiset(r) && r[1] in multiset(r);
    assert multiset{r[0], r[1]} == multiset{a, b};
  }

  /** `f` applied to every element (Array.prototype.map). */
  function Map<T, U>(s: seq<T>, f: T -> U): (r: seq<U>)
    ensures |r| == |s|
    ensures forall i :: 0 <= i < |s| ==> r[i] == f(s[i])
  {
    seq(|s|, i requires 0 <= i < |s| => f(s[i]))
  }

  /** The concatenation of `f(x)` over the elements `x` of `s`, in order. */
  function FlatMap<T, U>(s: seq<T>, f: T -> seq<U>): (r: seq<U>)
  {
    if s == [] then [] else f(s[0]) + FlatMap(s[1..], f)
  }

  /** The first `n` elements, or all of them when there are fewer
      (Array.prototype.slice(0, n)). */
  function Take<T>(s: seq<T>, n: nat): (r: seq<T>)
    ensures |r| == if |s| < n then |s| else n
    ensures forall i :: 0 <= i < |r| ==> r[i] == s[i]
  {
    if |s| <= n then s else s[..n]
  }

  predicate Distinct<T(==)>(s: seq<T>) {
    forall i, j :: 0 <= i < j < |s| ==> s[i] != s[j]
  }

  /** Concatenation after a first element, re-associated. */
  lemma ConsAppend<T>(x: T, u: seq<T>, v: seq<T>)
    ensures ([x] + u) + v == [x] + (u + v)
  {
  }

  /** The head and tail of a concatenation with a non-empty front. */
  lemma TailAppend<T>(u: seq<T>, v: seq<T>)
    requires u != []
    ensures (u + v)[0] == u[0] && (u + v)[1..] == u[1..] + v
  {
  }

  lemma {:induction false} FilterConcat<T>(a: seq<T>, b: seq<T>, p: T -> bool)
    ensures Filter(a + b, p) == Filter(a, p) + Filter(b, p)
  {
    if a == [] {
      assert a + b == b;
    } else {
      assert (a + b)[1..] == a[1..] + b;
      FilterConcat(a[1..], b, p);
    }
  }

  /** Filtering keeps exactly the multiplicity of every element it keeps. */
  lemma {:induction false} FilterMultiset<T>(s: seq<T>, p: T -> bool, x: T)
    ensures multiset(Filter(s, p))[x] == if p(x) then multiset(s)[x] else 0
  {
    if s != [] {
      var head := if p(s[0]) then [s[0]] else [];
      FilterMultiset(s[1..], p, x);
      assert s == [s[0]] + s[1..];
      assert multiset(Filter(s, p)) == multiset(head) + multiset(Filter(s[1..], p));
    }
  }

  /** Permuted inputs give permuted filter results. */
  lemma FilterPermutation<T>(s: seq<T>, t: seq<T>, p: T -> bool)
    requires multiset(s) == multiset(t)
    ensures multiset(Filter(s, p)) == multiset(Filter(t, p))
  {
    forall x
      ensures multiset(Filter(s, p))[x] == multiset(Filter(t, p))[x]
    {
      FilterMultiset(s, p, x);
      FilterMultiset(t, p, x);
    }
  }

  /** A filter result keeps the relative order of what it keeps, so it
      keeps distinctness. */
  lemma {:induction false} FilterDistinct<T>(s: seq<T>, p: T -> bool)
    requires Distinct(s)
    ensures Distinct(Filter(s, p))
  {
    if s != [] {
      assert Distinct(s[1..]) by {
        forall i, j | 0 <= i < j < |s[1..]| ensures s[1..][i] != s[1..][j] {
          assert s[1..][i] == s[i + 1] && s[1..][j] == s[j + 1];
        }
      }
      FilterDistinct(s[1..], p);
      assert s[0] !in s[1..];
    }
  }

  lemma MapConcat<T, U>(a: seq<T>, b: seq<T>, f: T -> U)
    ensures Map(a + b, f) == Map(a, f) + Map(b, f)
  {
  }

  lemma AppendAssoc<T>(a: seq<T>, b: seq<T>, c: seq<T>)
    ensures (a + b) + c == a + (b + c)
  {
  }

  /** `t` around its element at `k`. */
  lemma Pick<T>(t: seq<T>, k: nat)
    requires k < |t|
    ensures t == t[..k] + [t[k]] + t[k + 1..]
  {
    assert t[k..] == [t[k]] + t[k + 1..];
    assert t == t[..k] + t[k..];
    AppendAssoc(t[..k], [t[k]], t[k + 1..]);
  }

  /** Taking out the element at `k` takes one copy out of the multiset. */
  lemma RemoveAt<T>(t: seq<T>, k: nat)
    requires k < |t|
    ensures t == t[..k] + [t[k]] + t[k + 1..]
    ensures multiset(t[..k] + t[k + 1..]) == multiset(t) - multiset{t[k]}
  {
    Pick(t, k);
  }

  /** Mapping a permutation gives a permutation. */
  lemma {:induction false} MapPermutation<T, U>(s: seq<T>, t: seq<T>, f: T -> U)
    requires multiset(s) == multiset(t)
    ensures multiset(Map(s, f)) == multiset(Map(t, f))
    decreases |s|
  {
    if s == [] {
      assert |t| == |multiset(t)| == 0;
    } else {
      var x := s[0];
      assert x in multiset(t);
      var k :| 0 <= k < |t| && t[k] == x;
      RemoveAt(t, k);
      var rest := t[..k] + t[k + 1..];
      assert s == [x] + s[1..];
      assert multiset(s[1..]) == multiset(s) - multiset{x};
      MapPermutation(s[1..], rest, f);
      MapPick(t, k, f);
      MapCons(s, f);
    }
  }

  lemma MapCons<T, U>(s: seq<T>, f: T -> U)
    requires s != []
    ensures Map(s, f) == [f(s[0])] + Map(s[1..], f)
  {
  }

  /** The images of `t` are that of `t[k]` and those of the rest. */
  lemma MapPick<T, U>(t: seq<T>, k: nat, f: T -> U)
    requires k < |t|
    ensures multiset(Map(t, f)) == multiset{f(t[k])} + multiset(Map(t[..k] + t[k + 1..], f))
  {
    var x, front, back := t[k], t[..k], t[k + 1..];
    var mFront, mBack := Map(front, f), Map(back, f);
    Pick(t, k);
    MapConcat(front + [x], back, f);
    MapConcat(front, [x], f);
    assert Map([x], f) == [f(x)];
    MapConcat(front, back, f);
    assert multiset(Map(t, f)) == multiset(mFront) + multiset{f(x)} + multiset(mBack);
  }

  lemma {:induction false} FlatMapConcat<T, U>(a: seq<T>, b: seq<T>, f: T -> seq<U>)
    ensures FlatMap(a + b, f) == FlatMap(a, f) + FlatMap(b, f)
  {
    if a == [] {
      assert a + b == b;
    } else {
      assert (a + b)[1..] == a[1..] + b;
      FlatMapConcat(a[1..], b, f);
    }
  }

  /** Flattening a permutation gives a permutation: the multiset of all
      pieces does not depend on the order of the inputs. */
  lemma {:induction false} FlatMapPermutation<T, U>(s: seq<T>, t: seq<T>, f: T -> seq<U>)
    requires multiset(s) == multiset(t)
    ensures multiset(FlatMap(s, f)) == multiset(FlatMap(t, f))
    decreases |s|
  {
    if s == [] {
      assert |t| == |multiset(t)| == 0;
    } else {
      var x := s[0];
      assert x in multiset(t);
      var k :| 0 <= k < |t| && t[k] == x;
      RemoveAt(t, k);
      var rest := t[..k] + t[k + 1..];
      assert s == [x] + s[1..];
      assert multiset(s[1..]) == multiset(s) - multiset{x};
      FlatMapPermutation(s[1..], rest, f);
      FlatMapPick(t, k, f);
      assert multiset(FlatMap(s, f)) == multiset(f(x)) + multiset(FlatMap(s[1..], f));
    }
  }

  /** The pieces of `t` are those of `t[k]` and those of the rest. */
  lemma FlatMapPick<T, U>(t: seq<T>, k: nat, f: T -> seq<U>)
    requires k < |t|
    ensures multiset(FlatMap(t, f)) == multiset(f(t[k])) + multiset(FlatMap(t[..k] + t[k + 1..], f))
  {
    var x, front, back := t[k], t[..k], t[k + 1..];
    var fFront, fBack := FlatMap(front, f), FlatMap(back, f);
    Pick(t, k);
    FlatMapConcat(front + [x], back, f);
    FlatMapConcat(front, [x], f);
    FlatMapSingle(x, f);
    FlatMapConcat(front, back, f);
    assert FlatMap(t, f) == (fFront + f(x)) + fBack;
  }

  lemma FlatMapSingle<T, U>(x: T, f: T -> seq<U>)
    ensures FlatMap([x], f) == f(x)
  {
    assert FlatMap([x], f) == f(x) + FlatMap([], f);
  }

  /** In a sequence without repetitions every element occurs once. */
  lemma {:induction false} DistinctMultiplicity<T>(s: seq<T>, x: T)
    requires Distinct(s)
    ensures multiset(s)[x] == if x in s then 1 else 0
  {
    if s != [] {
      assert s == [s[0]] + s[1..];
      assert Distinct(s[1..]) by {
        forall i, j | 0 <= i < j < |s[1..]| ensures s[1..][i] != s[1..][j] {
          assert s[1..][i] == s[i + 1] && s[1..][j] == s[j + 1];
        }
      }
      DistinctMultiplicity(s[1..], x);
      assert s[0] !in s[1..];
    }
  }

  /** Two repetition-free sequences with the same elements are permutations
      of each other. */
  lemma SameElementsPermutation<T>(s: seq<T>, t: seq<T>)
    requires Distinct(s) && Distinct(t)
    requires forall x :: x in s <==> x in t
    ensures multiset(s) == multiset(t)
  {
    forall x ensures multiset(s)[x] == multiset(t)[x] {
      DistinctMultiplicity(s, x);
      DistinctMultiplicity(t, x);
    }
  }

  lemma TwoOccurrences<T>(t: seq<T>, i: nat, j: nat)
    requires i < j < |t| && t[i] == t[j]
    ensures multiset(t)[t[i]] >= 2
  {
    assert t == t[..j] + t[j..];
    assert t[i] in multiset(t[..j]);
    assert t[j] in multiset(t[j..]);
  }

  /** A permutation of a repetition-free sequence is repetition-free. */
  lemma PermutationDistinct<T>(s: seq<T>, t: seq<T>)
    requires multiset(s) == multiset(t)
    requires Distinct(s)
    ensures Distinct(t)
  {
    forall i, j | 0 <= i < j < |t| ensures t[i] != t[j] {
      if t[i] == t[j] {
        TwoOccurrences(t, i, j);
        DistinctMultiplicity(s, t[i]);
      }
    }
  }

  lemma {:induction false} FilterAll<T>(s: seq<T>, p: T -> bool)
    requires forall i :: 0 <= i < |s| ==> p(s[i])
    ensures Filter(s, p) == s
  {
    if s != [] {
      FilterAll(s[1..], p);
      assert s == [s[0]] + s[1..];
    }
  }

  lemma {:induction false} FilterNone<T>(s: seq<T>, p: T -> bool)
    requires forall i :: 0 <= i < |s| ==> !p(s[i])
    ensures Filter(s, p) == []
  {
    if s != [] {
      FilterNone(s[1..], p);
    }
  }

  /** What a filter drops and what it keeps make up the whole. */
  lemma FilterComplement<T>(s: seq<T>, p: T -> bool, q: T -> bool)
    requires forall x :: q(x) == !p(x)
    ensures multiset(Filter(s, p)) + multiset(Filter(s, q)) == multiset(s)
  {
    forall x ensures (multiset(Filter(s, p)) + multiset(Filter(s, q)))[x] == multiset(s)[x] {
      FilterMultiset(s, p, x);
      FilterMultiset(s, q, x);
    }
  }

  /** Sequences that agree under `f` have prefixes that agree under `f`. */
  lemma MapTake<T, U>(a: seq<T>, b: seq<T>, f: T -> U, n: nat)
    requires Map(a, f) == Map(b, f)
    ensures Map(Take(a, n), f) == Map(Take(b, n), f)
  {
    assert |a| == |Map(a, f)| == |Map(b, f)| == |b|;
    forall i | 0 <= i < |Take(a, n)| ensures f(Take(a, n)[i]) == f(Take(b, n)[i]) {
      assert Map(a, f)[i] == Map(b, f)[i];
    }
  }

  /** A filter that keeps nothing of any part keeps nothing of the whole. */
  lemma {:induction false} FilterFlatMapNone<T, U>(s: seq<T>, f: T -> seq<U>, p: U -> bool)
    requires forall i :: 0 <= i < |s| ==> Filter(f(s[i]), p) == []
    ensures Filter(FlatMap(s, f), p) == []
  {
    if s != [] {
      FilterFlatMapNone(s[1..], f, p);
      FilterConcat(f(s[0]), FlatMap(s[1..], f), p);
    }
  }
}

=== FILE: stable_sort.dfy ===
/** A stable sort into non-increasing order of an integer rank.

    Array.prototype.sort has been required to be stable since ECMAScript
    2019, so with a comparator `(a, b) => rank(b) - rank(a)` its result is
    fully determined: non-increasing rank, and equally ranked elements in
    their input order. `SortBy` is an insertion sort with exactly that
    result (`SortByUnique` shows that no other stable sort differs). */
module StableSort {
  import opened Seqs

  predicate SortedBy<T>(s: seq<T>, rank: T -> int) {
    forall i, j :: 0 <= i < j < |s| ==> rank(s[i]) >= rank(s[j])
  }

  /** Whether an element has rank `v`. */
  function HasRank<T>(rank: T -> int, v: int): T -> bool {
    x => rank(x) == v
  }

  /** The elements of rank `v`, in order: what stability preserves. */
  function SameRank<T(==)>(s: seq<T>, rank: T -> int, v: int): seq<T> {
    Filter(s, HasRank(rank, v))
  }

  /** Puts `x` in front of the first element of `t` ranked no higher than
      `x`; `x` is taken to come before every element of `t`. */
  function Insert<T>(x: T, t: seq<T>, rank: T -> int): (r: seq<T>)
    ensures |r| == |t| + 1
    ensures multiset(r) == multiset(t) + multiset{x}
  {
    if t == [] || rank(x) >= rank(t[0]) then
      [x] + t
    else
      assert t == [t[0]] + t[1..];
      [t[0]] + Insert(x, t[1..], rank)
  }

  lemma {:induction false} InsertSorted<T>(x: T, t: seq<T>, rank: T -> int)
    requires SortedBy(t, rank)
    ensures SortedBy(Insert(x, t, rank), rank)
  {
    if t != [] && rank(x) < rank(t[0]) {
      var rest := Insert(x, t[1..], rank);
      InsertSorted(x, t[1..], rank);
      forall j | 0 <= j < |rest| ensures rank(t[0]) >= rank(rest[j]) {
        assert rest[j] in multiset(t[1..]) + multiset{x};
        if rest[j] != x {
          assert rest[j] in t[1..];
          var k :| 0 <= k < |t[1..]| && t[1..][k] == rest[j];
          assert t[1..][k] == t[k + 1];
        }
      }
      var r := [t[0]] + rest;
      forall i, j | 0 <= i < j < |r| ensures rank(r[i]) >= rank(r[j]) {
        assert r[j] == rest[j - 1];
        if i > 0 {
          assert r[i] == rest[i - 1];
        }
      }
    }
  }

  /** Non-increasing order of `rank`, ties in input order. */
  function SortBy<T>(s: seq<T>, rank: T -> int): (r: seq<T>)
    ensures multiset(r) == multiset(s)
    ensures SortedBy(r, rank)
  {
    if s == [] then []
    else
      assert s == [s[0]] + s[1..];
      InsertSorted(s[0], SortBy(s[1..], rank), rank);
      Insert(s[0], SortBy(s[1..], rank), rank)
  }

  lemma SameRankCons<T>(s: seq<T>, rank: T -> int, v: int)
    requires s != []
    ensures SameRank(s, rank, v)
            == (if rank(s[0]) == v then [s[0]] else []) + SameRank(s[1..], rank, v)
  {
  }

  lemma SameRankConcat<T>(a: seq<T>, b: seq<T>, rank: T -> int, v: int)
    ensures SameRank(a + b, rank, v) == SameRank(a, rank, v) + SameRank(b, rank, v)
  {
    FilterConcat(a, b, HasRank(rank, v));
  }

  lemma SameRankMember<T>(s: seq<T>, rank: T -> int, i: nat)
    requires i < |s|
    ensures s[i] in SameRank(s, rank, rank(s[i]))
  {
    FilterMembers(s, HasRank(rank, rank(s[i])), s[i]);
  }

  lemma SameRankOrigin<T>(s: seq<T>, rank: T -> int, v: int, x: T)
    requires x in SameRank(s, rank, v)
    ensures x in s && rank(x) == v
  {
    var r := SameRank(s, rank, v);
    var k :| 0 <= k < |r| && r[k] == x;
  }

  lemma SameRankSingle<T>(y: T, rank: T -> int, v: int)
    ensures SameRank([y], rank, v) == if rank(y) == v then [y] else []
  {
    SameRankCons([y], rank, v);
    assert [y][1..] == [];
  }

  lemma {:induction false} InsertSameRank<T>(x: T, t: seq<T>, rank: T -> int, v: int)
    ensures SameRank(Insert(x, t, rank), rank, v)
            == (if rank(x) == v then [x] else []) + SameRank(t, rank, v)
  {
    var hx := if rank(x) == v then [x] else [];
    SameRankSingle(x, rank, v);
    if t == [] || rank(x) >= rank(t[0]) {
      SameRankConcat([x], t, rank, v);
    } else {
      var h0 := if rank(t[0]) == v then [t[0]] else [];
      var rest := SameRank(t[1..], rank, v);
      InsertSameRank(x, t[1..], rank, v);
      SameRankCons(t, rank, v);
      SameRankConcat([t[0]], Insert(x, t[1..], rank), rank, v);
      SameRankSingle(t[0], rank, v);
      assert h0 == [] || hx == [];
      calc {
        SameRank(Insert(x, t, rank), rank, v);
        h0 + (hx + rest);
        { AppendAssoc(h0, hx, rest); AppendAssoc(hx, h0, rest); }
        hx + (h0 + rest);
      }
    }
  }

  /** Stability: for every rank, the elements of that rank keep their
      input order. */
  lemma {:induction false} SortByStable<T>(s: seq<T>, rank: T -> int, v: int)
    ensures SameRank(SortBy(s, rank), rank, v) == SameRank(s, rank, v)
  {
    if s != [] {
      SortByStable(s[1..], rank, v);
      InsertSameRank(s[0], SortBy(s[1..], rank), rank, v);
      SameRankCons(s, rank, v);
    }
  }

  lemma SortedHeadIsMax<T>(s: seq<T>, rank: T -> int, x: T)
    requires SortedBy(s, rank) && x in s
    ensures rank(x) <= rank(s[0])
  {
    var k :| 0 <= k < |s| && s[k] == x;
  }

  /** A sorted, rank-by-rank order-preserving arrangement is unique: any two
      agree element for element. */
  lemma {:induction false} SortedStableUnique<T>(a: seq<T>, b: seq<T>, rank: T -> int)
    requires SortedBy(a, rank) && SortedBy(b, rank)
    requires forall v :: SameRank(a, rank, v) == SameRank(b, rank, v)
    ensures a == b
    decreases |a|
  {
    if a == [] || b == [] {
      var c := if a == [] then b else a;
      if c != [] {
        SameRankMember(c, rank, 0);
      }
    } else {
      var ra, rb := rank(a[0]), rank(b[0]);
      SameRankMember(b, rank, 0);
      SameRankOrigin(a, rank, rb, b[0]);
      SortedHeadIsMax(a, rank, b[0]);
      SameRankMember(a, rank, 0);
      SameRankOrigin(b, rank, ra, a[0]);
      SortedHeadIsMax(b, rank, a[0]);
      assert ra == rb;
      SameRankCons(a, rank, ra);
      SameRankCons(b, rank, ra);
      assert a[0] == SameRank(a, rank, ra)[0] == SameRank(b, rank, ra)[0] == b[0];
      forall v ensures SameRank(a[1..], rank, v) == SameRank(b[1..], rank, v) {
        SameRankCons(a, rank, v);
        SameRankCons(b, rank, v);
        var head := if rank(a[0]) == v then [a[0]] else [];
        assert head + SameRank(a[1..], rank, v) == head + SameRank(b[1..], rank, v);
        assert (head + SameRank(a[1..], rank, v))[|head|..] == SameRank(a[1..], rank, v);
        assert (head + SameRank(b[1..], rank, v))[|head|..] == SameRank(b[1..], rank, v);
      }
      SortedStableUnique(a[1..], b[1..], rank);
      assert a == [a[0]] + a[1..];
      assert b == [b[0]] + b[1..];
    }
  }

  /** Every stable sort into non-increasing rank order returns what
      `SortBy` returns. */
  lemma SortByUnique<T>(s: seq<T>, rank: T -> int, r: seq<T>)
    requires SortedBy(r, rank)
    requires forall v :: SameRank(r, rank, v) == SameRank(s, rank, v)
    ensures r == SortBy(s, rank)
  {
    forall v ensures SameRank(r, rank, v) == SameRank(SortBy(s, rank), rank, v) {
      SortByStable(s, rank, v);
    }
    SortedStableUnique(r, SortBy(s, rank), rank);
  }

  /** A prefix of a sorted sequence is sorted. */
  lemma TakeSorted<T>(s: seq<T>, n: nat, rank: T -> int)
    requires SortedBy(s, rank)
    ensures SortedBy(Take(s, n), rank)
  {
  }

  /** Dropping elements from a sorted sequence leaves it sorted. */
  lemma {:induction false} FilterSorted<T>(s: seq<T>, p: T -> bool, rank: T -> int)
    requires SortedBy(s, rank)
    ensures SortedBy(Filter(s, p), rank)
  {
    if s != [] {
      var rest := Filter(s[1..], p);
      FilterSorted(s[1..], p, rank);
      forall j | 0 <= j < |rest| ensures rank(rest[j]) <= rank(s[0]) {
        var k :| 0 <= k < |s[1..]| && s[1..][k] == rest[j];
        assert s[1..][k] == s[k + 1];
      }
      var h := if p(s[0]) then [s[0]] else [];
      var r := h + rest;
      forall i, j | 0 <= i < j < |r| ensures rank(r[i]) >= rank(r[j]) {
        assert r[j] == rest[j - |h|];
        if i >= |h| {
          assert r[i] == rest[i - |h|];
        }
      }
    }
  }

  predicate NonIncreasing(s: seq<int>) {
    forall i, j :: 0 <= i < j < |s| ==> s[i] >= s[j]
  }

  /** Two non-increasing arrangements of the same numbers are equal. */
  lemma {:induction false} NonIncreasingUnique(a: seq<int>, b: seq<int>)
    requires NonIncreasing(a) && NonIncreasing(b)
    requires multiset(a) == multiset(b)
    ensures a == b
    decreases |a|
  {
    if a == [] {
      assert |b| == |multiset(b)| == 0;
    } else {
      assert |b| == |multiset(b)| == |multiset(a)| == |a|;
      assert a[0] in multiset(b);
      assert b[0] in multiset(a);
      assert a[0] == b[0];
      assert a == [a[0]] + a[1..];
      assert b == [b[0]] + b[1..];
      assert multiset(a[1..]) == multiset(a) - multiset{a[0]};
      assert multiset(b[1..]) == multiset(b) - multiset{b[0]};
      NonIncreasingUnique(a[1..], b[1..]);
    }
  }
}

=== FILE: unique_code.dfy ===
/** The poll-code generator: up to ten random candidates drawn from an
    alphabet without look-alike characters, the first one not already in
    use is returned, and the generator fails when all ten are taken. */
module UniqueCode {
  import opened Results
  import opened RandomSource

  /** Upper-case letters without I and O, digits without 0 and 1. */
  const Alphabet: string := "ABCDEFGHJKLMNPQRSTUVWXYZ23456789"

  const MaxAttempts: nat := 10

  const DefaultCodeLength: int := 6

  datatype CodeError = Exhausted

  /** `generateUniqueCode`'s inner loop runs `length` times, not at all
      when `length` is zero or negative. */
  function CodeLength(length: int): nat {
    if length < 0 then 0 else length
  }

  /** An upper-case letter or digit that cannot be mistaken for another:
      what `Alphabet` holds (`AlphabetContents`). */
  predicate InAlphabet(c: char) {
    ('A' <= c <= 'Z' || '0' <= c <= '9') && !LookAlike(c)
  }

  /** The characters left out of the alphabet. */
  predicate LookAlike(c: char) {
    c == '0' || c == '1' || c == 'I' || c == 'O'
  }

  /** A code `generateUniqueCode(length)` can produce. */
  predicate WellFormed(code: string, length: int) {
    |code| == CodeLength(length) && forall i :: 0 <= i < |code| ==> InAlphabet(code[i])
  }

  /** The index of the draw that picks character `i` of attempt `attempt`:
      every attempt consumes `length` draws. */
  function DrawIndex(length: int, attempt: nat, i: nat): nat {
    attempt * CodeLength(length) + i
  }

  /** `characters.charAt(Math.floor(Math.random() * characters.length))`. */
  function PickChar(u: Unit): (c: char)
    ensures InAlphabet(c)
  {
    AlphabetChars();
    Alphabet[ScaledIndex(u, |Alphabet|)]
  }

  /** The code attempt number `attempt` builds. */
  function Candidate(draws: Draws, length: int, attempt: nat): (code: string)
    ensures WellFormed(code, length)
  {
    var code := seq(CodeLength(length), i requires 0 <= i < CodeLength(length) => PickChar(draws(DrawIndex(length, attempt, i))));
    assert forall i :: 0 <= i < |code| ==> code[i] == PickChar(draws(DrawIndex(length, attempt, i)));
    code
  }

  /** Whether every attempt from `from` up to the last collides. */
  predicate AllTaken(draws: Draws, length: int, existing: set<string>, from: nat) {
    forall k :: from <= k < MaxAttempts ==> Candidate(draws, length, k) in existing
  }

  /** Whether attempt `k` is the first from `from` on whose candidate is
      free. */
  predicate FirstFreeAttempt(draws: Draws, length: int, existing: set<string>, from: nat, k: nat) {
    from <= k < MaxAttempts && Candidate(draws, length, k) !in existing
    && forall j :: from <= j < k ==> Candidate(draws, length, j) in existing
  }

  /** The attempts from `attempt` on. */
  function FirstFree(draws: Draws, length: int, existing: set<string>, attempt: nat): (r: Result<string, CodeError>)
    ensures r.Ok? ==> r.value !in existing && WellFormed(r.value, length)
    ensures r.Err? <==> AllTaken(draws, length, existing, attempt)
    decreases MaxAttempts - attempt
  {
    if attempt >= MaxAttempts then Err(Exhausted)
    else
      var code := Candidate(draws, length, attempt);
      if code !in existing then
        Ok(code)
      else
        FirstFree(draws, length, existing, attempt + 1)
  }

  /** `generateUniqueCode(length)` with `Math.random()` read from `draws`
      and the codes already stored as `existing`. */
  function GenerateUniqueCode(draws: Draws, length: int, existing: set<string>): (r: Result<string, CodeError>)
    ensures r.Ok? ==> r.value !in existing && WellFormed(r.value, length)
    ensures r.Err? <==> AllTaken(draws, length, existing, 0)
  {
    FirstFree(draws, length, existing, 0)
  }

  lemma {:induction false} FirstFreeChosen(draws: Draws, length: int, existing: set<string>, attempt: nat)
    requires FirstFree(draws, length, existing, attempt).Ok?
    ensures exists k :: FirstFreeAttempt(draws, length, existing, attempt, k)
                        && FirstFree(draws, length, existing, attempt).value == Candidate(draws, length, k)
    decreases MaxAttempts - attempt
  {
    if Candidate(draws, length, attempt) !in existing {
      assert FirstFreeAttempt(draws, length, existing, attempt, attempt);
    } else {
      FirstFreeChosen(draws, length, existing, attempt + 1);
      var k :| FirstFreeAttempt(draws, length, existing, attempt + 1, k)
               && FirstFree(draws, length, existing, attempt + 1).value == Candidate(draws, length, k);
      assert FirstFreeAttempt(draws, length, existing, attempt, k);
    }
  }

  /** A successful call returns the candidate of the first attempt whose
      candidate is not in use: earlier attempts all collided. */
  lemma ReturnsFirstFreeCandidate(draws: Draws, length: int, existing: set<string>)
    requires GenerateUniqueCode(draws, length, existing).Ok?
    ensures exists k :: FirstFreeAttempt(draws, length, existing, 0, k)
                        && GenerateUniqueCode(draws, length, existing).value == Candidate(draws, length, k)
  {
    FirstFreeChosen(draws, length, existing, 0);
  }

  /** The inner loop: one character per draw, appended in turn. */
  method BuildCandidate(draws: Draws, length: int, attempt: nat) returns (code: string)
    ensures code == Candidate(draws, length, attempt)
  {
    code := "";
    var n := CodeLength(length);
    var i := 0;
    while i < n
      invariant 0 <= i <= n
      invariant |code| == i
      invariant forall m :: 0 <= m < i ==> code[m] == PickChar(draws(DrawIndex(length, attempt, m)))
    {
      code := code + [PickChar(draws(attempt * n + i))];
      i := i + 1;
    }
  }

  /** The generator as the repository writes it: a loop over the attempts
      that returns the first candidate not in use. */
  method ComputeUniqueCode(draws: Draws, length: int, existing: set<string>) returns (r: Result<string, CodeError>)
    ensures r == GenerateUniqueCode(draws, length, existing)
  {
    var attempt := 0;
    while attempt < MaxAttempts
      invariant 0 <= attempt <= MaxAttempts
      invariant FirstFree(draws, length, existing, attempt) == GenerateUniqueCode(draws, length, existing)
    {
      var code := BuildCandidate(draws, length, attempt);
      if code !in existing {
        return Ok(code);
      }
      attempt := attempt + 1;
    }
    return Err(Exhausted);
  }

  lemma AlphabetChars()
    ensures |Alphabet| == 32
    ensures forall k :: 0 <= k < |Alphabet| ==> InAlphabet(Alphabet[k])
  {
  }

  /** The alphabet is exactly the upper-case letters and digits that
      cannot be mistaken for one another, 32 of them. */
  lemma AlphabetContents(c: char)
    ensures |Alphabet| == 32
    ensures c in Alphabet <==> InAlphabet(c)
  {
    AlphabetChars();
    if InAlphabet(c) {
      var k := if '2' <= c <= '9' then 24 + (c as int - '2' as int)
               else if c < 'I' then c as int - 'A' as int
               else if c < 'O' then c as int - 'A' as int - 1
               else c as int - 'A' as int - 2;
      assert Alphabet[k] == c;
    }
  }

  /** When no stored code has the requested length no candidate can
      collide, so the first attempt is returned. */
  lemma NoCollisionFirstAttempt(draws: Draws, length: int, existing: set<string>)
    requires forall c :: c in existing ==> |c| != CodeLength(length)
    ensures GenerateUniqueCode(draws, length, existing) == Ok(Candidate(draws, length, 0))
  {
  }
}

=== FILE: word_frequencies.dfy ===
/** generateWordFrequencies: the term-frequency ranking computed from the
    response texts when a poll is closed.

    The texts are joined with a space and lower-cased, every character
    that is neither a word character nor whitespace is dropped, the result
    is split at whitespace runs, and tokens of at most two characters and
    stop words are discarded. Every remaining term is counted in a plain
    object; terms seen at least twice are kept, sorted stably by count,
    highest first, and the first fifty are returned. The result is the
    sequence of (term, count) pairs handed to Object.fromEntries. */
module WordFrequencies {
  import opened Seqs
  import opened StableSort
  import opened JsText
  import opened JsObjects
  import opened JsNumbers

  /** The stop-word table (`nor` is listed twice in the source). */
  const StopWords: set<string> := {
    "a", "an", "the", "and", "but", "or", "for", "nor", "on", "at", "to", "by",
    "is", "are", "was", "were", "be", "been", "being", "have", "has", "had",
    "i", "you", "he", "she", "it", "we", "they", "my", "your", "his", "her",
    "its", "our", "their", "this", "that", "these", "those", "of", "in", "with",
    "about", "against", "between", "into", "through", "during", "before", "after",
    "above", "below", "from", "up", "down", "out", "off", "over", "under",
    "again", "further", "then", "once", "here", "there", "when", "where", "why",
    "how", "all", "any", "both", "each", "few", "more", "most", "other", "some",
    "such", "no", "not", "only", "own", "same", "so", "than", "too", "very"
  }

  /** Tokens must be longer than this. */
  const ShortWordLength := 2
  /** Terms seen fewer times than this are dropped. */
  const MinCount := 2
  /** At most this many terms are returned. */
  const MaxTerms := 50

  datatype Entry = Entry(term: string, count: nat)

  function Term(e: Entry): string {
    e.term
  }

  function Count(e: Entry): int {
    e.count
  }

  /** The token filter: longer than two characters and not a stop word. */
  predicate Kept(w: string) {
    |w| > ShortWordLength && w !in StopWords
  }

  predicate IsFrequent(e: Entry) {
    e.count >= MinCount
  }

  /** The whitespace-separated tokens of the joined, normalised text. */
  function Tokens(texts: seq<string>): seq<string> {
    Split(Normalize(Join(texts, " ")))
  }

  /** The tokens that survive the length and stop-word filter. */
  function Words(texts: seq<string>): seq<string> {
    Filter(Tokens(texts), Kept)
  }

  function Occurrences(words: seq<string>, w: string): nat {
    multiset(words)[w]
  }

  /** The distinct words in order of first occurrence: the creation order
      of the counting object's keys. */
  function FirstSeen(words: seq<string>): (r: seq<string>)
    ensures Distinct(r)
    ensures forall i :: 0 <= i < |r| ==> r[i] in words
    ensures forall i :: 0 <= i < |words| ==> words[i] in r
  {
    if words == [] then []
    else
      var init := words[..|words| - 1];
      var last := words[|words| - 1];
      var p := FirstSeen(init);
      assert forall i :: 0 <= i < |init| ==> init[i] == words[i];
      if last in p then p else p + [last]
  }

  function EntryFor(words: seq<string>): string -> Entry {
    w => Entry(w, Occurrences(words, w))
  }

  /** The counting object, as (key, count) pairs in creation order. */
  function Tally(words: seq<string>): seq<Entry> {
    Map(FirstSeen(words), EntryFor(words))
  }

  /** Everything but the final truncation: the frequent entries, listed in
      object key order and then sorted stably by count, highest first. */
  function Ranking(tally: seq<Entry>): seq<Entry> {
    var counted := OwnKeysOrder(tally, Term);
    var frequent := OwnKeysOrder(Filter(counted, IsFrequent), Term);
    SortBy(frequent, Count)
  }

  function Rank(words: seq<string>): seq<Entry> {
    Take(Ranking(Tally(words)), MaxTerms)
  }

  /** generateWordFrequencies(texts). */
  function GenerateWordFrequencies(texts: seq<string>): seq<Entry> {
    Rank(Words(texts))
  }

  /** The entries of the object `generateWordFrequencies` returns, in the
      order they are enumerated (by Object.entries, or by JSON.stringify when
      the closed poll is stored). Object.fromEntries creates the keys in list
      order, the terms being distinct (`RankDistinctTerms`); enumeration then
      moves terms that are array indices, such as "2024", to the front in
      ascending numeric order. The other terms keep the ranking's order. */
  function ReturnedEntries(texts: seq<string>): (r: seq<Entry>)
    ensures multiset(r) == multiset(GenerateWordFrequencies(texts))
    ensures forall i, j :: 0 <= i < j < |r| && IsArrayIndex(r[j].term) ==>
              IsArrayIndex(r[i].term) && DecimalValue(r[i].term) <= DecimalValue(r[j].term)
    ensures Filter(r, IsOtherKey(Term)) == Filter(GenerateWordFrequencies(texts), IsOtherKey(Term))
    ensures SortedBy(Filter(r, IsOtherKey(Term)), Count)
  {
    var listed := GenerateWordFrequencies(texts);
    RankSorted(Words(texts));
    FilterSorted(listed, IsOtherKey(Term), Count);
    OwnKeysOrder(listed, Term)
  }

  /** A term that is an array index is enumerated before a word ranked
      above it. */
  lemma IndexTermEnumeratedFirst(word: Entry, index: Entry)
    requires !IsArrayIndex(word.term) && IsArrayIndex(index.term)
    ensures OwnKeysOrder([word, index], Term) == [index, word]
  {
    var r := OwnKeysOrder([word, index], Term);
    assert multiset([word, index]) == multiset{word, index};
    TwoElements(r, word, index);
  }

  /** `counts` has a key for exactly the words in `seen`. */
  ghost predicate SameKeys(counts: map<string, nat>, seen: seq<string>) {
    forall w :: w in counts <==> w in seen
  }

  /** `counts` holds every key's number of occurrences in `seen`. */
  ghost predicate RightCounts(counts: map<string, nat>, seen: seq<string>) {
    forall w :: w in counts ==> counts[w] == Occurrences(seen, w)
  }

  /** `counts` and `order` are the counting object after the words `seen`. */
  ghost predicate Counted(counts: map<string, nat>, order: seq<string>, seen: seq<string>) {
    SameKeys(counts, seen) && RightCounts(counts, seen) && order == FirstSeen(seen)
  }

  /** The counting loop: every word's number of occurrences, and the words
      in the order their keys were created. */
  method CountWords(words: seq<string>) returns (counts: map<string, nat>, order: seq<string>)
    ensures forall w :: w in counts <==> w in words
    ensures forall w :: w in counts ==> counts[w] == Occurrences(words, w)
    ensures order == FirstSeen(words)
  {
    counts, order := map[], [];
    for i := 0 to |words|
      invariant Counted(counts, order, words[..i])
    {
      assert words[..i + 1] == words[..i] + [words[i]];
      counts, order := CountOne(counts, order, words[..i], words[i]);
    }
    assert words[..|words|] == words;
  }

  /** `counts[w] = (counts[w] || 0) + 1`. */
  function Bump(counts: map<string, nat>, w: string): (r: map<string, nat>)
    ensures r.Keys == counts.Keys + {w}
    ensures r[w] == (if w in counts then counts[w] else 0) + 1
    ensures forall k :: k in counts && k != w ==> r[k] == counts[k]
  {
    if w in counts then counts[w := counts[w] + 1] else counts[w := 1]
  }

  /** One iteration of the counting loop. */
  method CountOne(counts: map<string, nat>, order: seq<string>, ghost seen: seq<string>, w: string)
    returns (counts': map<string, nat>, order': seq<string>)
    requires Counted(counts, order, seen)
    ensures Counted(counts', order', seen + [w])
  {
    BumpKeys(counts, seen, w);
    BumpCounts(counts, seen, w);
    FirstSeenSnoc(seen, w);
    counts' := Bump(counts, w);
    order' := if w in counts then order else order + [w];
  }

  lemma BumpKeys(counts: map<string, nat>, seen: seq<string>, w: string)
    requires SameKeys(counts, seen)
    ensures SameKeys(Bump(counts, w), seen + [w])
  {
    forall x ensures x in Bump(counts, w) <==> x in seen + [w] {
      assert x in seen + [w] <==> x in seen || x == w;
    }
  }

  lemma BumpCounts(counts: map<string, nat>, seen: seq<string>, w: string)
    requires SameKeys(counts, seen) && RightCounts(counts, seen)
    ensures RightCounts(Bump(counts, w), seen + [w])
  {
    assert multiset(seen + [w]) == multiset(seen) + multiset{w};
  }

  /** One more word adds its key at the end, when it is new. */
  lemma FirstSeenSnoc(seen: seq<string>, w: string)
    ensures FirstSeen(seen + [w]) == if w in seen then FirstSeen(seen) else FirstSeen(seen) + [w]
  {
    var s := seen + [w];
    assert s[..|s| - 1] == seen;
  }

  /** generateWordFrequencies as the source computes it: count in a loop,
      then filter, order, sort and truncate. */
  method ComputeWordFrequencies(texts: seq<string>) returns (r: seq<Entry>)
    ensures r == GenerateWordFrequencies(texts)
  {
    var words := Words(texts);
    var counts, order := CountWords(words);
    var tally := Entries(counts, order);
    EntriesAreTally(words, counts, order);
    r := Take(Ranking(tally), MaxTerms);
  }

  /** `Object.entries(counts)`, with the keys in `order`. */
  function Entries(counts: map<string, nat>, order: seq<string>): (r: seq<Entry>)
    requires forall i :: 0 <= i < |order| ==> order[i] in counts
    ensures |r| == |order|
    ensures forall i :: 0 <= i < |order| ==> r[i] == Entry(order[i], counts[order[i]])
  {
    seq(|order|, i requires 0 <= i < |order| => Entry(order[i], counts[order[i]]))
  }

  lemma EntriesAreTally(words: seq<string>, counts: map<string, nat>, order: seq<string>)
    requires forall w :: w in counts <==> w in words
    requires forall w :: w in counts ==> counts[w] == Occurrences(words, w)
    requires order == FirstSeen(words)
    ensures forall i :: 0 <= i < |order| ==> order[i] in counts
    ensures Entries(counts, order) == Tally(words)
  {
  }

  /** The counting object holds every word once, with its number of
      occurrences. */
  lemma TallyMembers(words: seq<string>, e: Entry)
    ensures e in Tally(words) <==> e.term in words && e.count == Occurrences(words, e.term)
  {
    var t, fs := Tally(words), FirstSeen(words);
    if e in t {
      var i :| 0 <= i < |t| && t[i] == e;
      assert e == Entry(fs[i], Occurrences(words, fs[i]));
    }
    if e.term in words && e.count == Occurrences(words, e.term) {
      var k :| 0 <= k < |words| && words[k] == e.term;
      assert words[k] in fs;
      var i :| 0 <= i < |fs| && fs[i] == e.term;
      assert t[i] == e;
    }
  }

  lemma TallyDistinct(words: seq<string>)
    ensures Distinct(Tally(words))
  {
    var t, fs := Tally(words), FirstSeen(words);
    forall i, j | 0 <= i < j < |t| ensures t[i] != t[j] {
      assert t[i].term == fs[i] && t[j].term == fs[j];
    }
  }

  /** The ranking holds exactly the words seen at least twice, each once,
      with its number of occurrences. */
  lemma RankingMembers(words: seq<string>, e: Entry)
    ensures e in Ranking(Tally(words)) <==>
            e.term in words && e.count == Occurrences(words, e.term) && e.count >= MinCount
  {
    var tally := Tally(words);
    var counted := OwnKeysOrder(tally, Term);
    FilterPermutation(counted, tally, IsFrequent);
    FilterMultiset(tally, IsFrequent, e);
    TallyMembers(words, e);
  }

  lemma RankingDistinct(words: seq<string>)
    ensures Distinct(Ranking(Tally(words)))
  {
    var tally := Tally(words);
    var counted := OwnKeysOrder(tally, Term);
    var frequent := OwnKeysOrder(Filter(counted, IsFrequent), Term);
    TallyDistinct(words);
    PermutationDistinct(tally, counted);
    FilterDistinct(counted, IsFrequent);
    PermutationDistinct(Filter(counted, IsFrequent), frequent);
    PermutationDistinct(frequent, SortBy(frequent, Count));
  }

  /** `words.join(" ")`. */
  function JoinWords(words: seq<string>): string {
    Join(words, " ")
  }

  predicate IsLowerWordOrSpace(c: char) {
    IsLowerWordChar(c) || IsSpace(c)
  }

  /** Every token consists of lower-case letters, digits and underscores. */
  lemma TokenChars(texts: seq<string>)
    ensures forall k, m :: 0 <= k < |Tokens(texts)| && 0 <= m < |Tokens(texts)[k]| ==>
              IsLowerWordChar(Tokens(texts)[k][m])
  {
    var normal := Normalize(Join(texts, " "));
    SplitChars(normal, IsLowerWordOrSpace);
  }

  /** Every entry of `Rank(words)` is a word seen at least twice, with its
      number of occurrences. */
  lemma RankEntries(words: seq<string>, i: nat)
    requires i < |Rank(words)|
    ensures Rank(words)[i].term in words
    ensures Rank(words)[i].count == Occurrences(words, Rank(words)[i].term) >= MinCount
  {
    var ranking := Ranking(Tally(words));
    assert Rank(words)[i] == ranking[i];
    RankingMembers(words, ranking[i]);
  }

  /** At most fifty terms, counts non-increasing. */
  lemma RankSorted(words: seq<string>)
    ensures |Rank(words)| <= MaxTerms
    ensures SortedBy(Rank(words), Count)
  {
    TakeSorted(Ranking(Tally(words)), MaxTerms, Count);
  }

  /** No term is reported twice. */
  lemma RankDistinctTerms(words: seq<string>)
    ensures forall i, j :: 0 <= i < j < |Rank(words)| ==> Rank(words)[i].term != Rank(words)[j].term
  {
    var ranking, r := Ranking(Tally(words)), Rank(words);
    RankingDistinct(words);
    forall i, j | 0 <= i < j < |r| ensures r[i].term != r[j].term {
      RankEntries(words, i);
      RankEntries(words, j);
      assert r[i] == ranking[i] && r[j] == ranking[j];
    }
  }

  /** A word seen fewer than two times is never reported. */
  lemma RareWordsOmitted(words: seq<string>, w: string)
    requires Occurrences(words, w) < MinCount
    ensures forall i :: 0 <= i < |Rank(words)| ==> Rank(words)[i].term != w
  {
    forall i | 0 <= i < |Rank(words)| ensures Rank(words)[i].term != w {
      RankEntries(words, i);
    }
  }

  /** A word seen at least twice is reported unless fifty terms are
      reported and it is seen no more often than the last of them. */
  lemma OmittedWordsRankLower(words: seq<string>, w: string)
    requires Occurrences(words, w) >= MinCount
    requires forall i :: 0 <= i < |Rank(words)| ==> Rank(words)[i].term != w
    ensures |Rank(words)| == MaxTerms
    ensures Occurrences(words, w) <= Rank(words)[MaxTerms - 1].count
  {
    var ranking, r := Ranking(Tally(words)), Rank(words);
    var n := Occurrences(words, w);
    assert w in multiset(words);
    RankingMembers(words, Entry(w, n));
    var k :| 0 <= k < |ranking| && ranking[k] == Entry(w, n);
    assert k >= |r|;
    assert |ranking| > MaxTerms;
    assert r[MaxTerms - 1] == ranking[MaxTerms - 1];
  }

  /** Every reported term is a kept token: longer than two characters,
      not a stop word, and made of lower-case letters, digits and
      underscores only. */
  lemma TermsAreKeptTokens(texts: seq<string>)
    ensures forall i :: 0 <= i < |GenerateWordFrequencies(texts)| ==>
              var w := GenerateWordFrequencies(texts)[i].term;
              |w| > 2 && w !in StopWords && w in Tokens(texts)
              && forall m :: 0 <= m < |w| ==> IsLowerWordChar(w[m])
  {
    var words, r, tokens := Words(texts), GenerateWordFrequencies(texts), Tokens(texts);
    TokenChars(texts);
    forall i | 0 <= i < |r|
      ensures Kept(r[i].term) && r[i].term in tokens
      ensures forall m :: 0 <= m < |r[i].term| ==> IsLowerWordChar(r[i].term[m])
    {
      RankEntries(words, i);
      var k :| 0 <= k < |words| && words[k] == r[i].term;
      assert words[k] in tokens && Kept(words[k]);
      var j :| 0 <= j < |tokens| && tokens[j] == r[i].term;
    }
  }

  /** Every reported count is the number of times its term occurs among
      all the tokens, before short words and stop words are dropped. */
  lemma CountsAreTokenOccurrences(texts: seq<string>)
    ensures forall i :: 0 <= i < |GenerateWordFrequencies(texts)| ==>
              var e := GenerateWordFrequencies(texts)[i];
              e.count == Occurrences(Tokens(texts), e.term) >= MinCount
  {
    var words, r := Words(texts), GenerateWordFrequencies(texts);
    TermsAreKeptTokens(texts);
    forall i | 0 <= i < |r|
      ensures r[i].count == Occurrences(Tokens(texts), r[i].term) >= MinCount
    {
      RankEntries(words, i);
      FilterMultiset(Tokens(texts), Kept, r[i].term);
    }
  }

  /** No input text, or no token that survives the filter, gives no terms. */
  lemma NoWordsNoTerms(texts: seq<string>)
    ensures Words(texts) == [] ==> GenerateWordFrequencies(texts) == []
    ensures GenerateWordFrequencies([]) == []
  {
    assert Tokens([]) == [""];
    assert Words([]) == Filter([""], Kept);
  }

  /** The kept tokens are those of each text in turn. */
  lemma WordsOfEachText(texts: seq<string>)
    requires texts != []
    ensures Words(texts) == Filter(FlatMap(texts, NormalizedFields), Kept)
  {
    SplitFieldsAgree(Normalize(Join(texts, " ")), Kept);
    JoinFields(texts);
  }

  /** Reordering the texts reorders the kept tokens and nothing more. */
  lemma WordsPermutation(texts: seq<string>, texts': seq<string>)
    requires multiset(texts) == multiset(texts')
    ensures multiset(Words(texts)) == multiset(Words(texts'))
  {
    if texts == [] {
      assert |texts'| == |multiset(texts')| == 0;
    } else {
      assert |texts'| == |multiset(texts')| == |multiset(texts)| > 0;
      WordsOfEachText(texts);
      WordsOfEachText(texts');
      FlatMapPermutation(texts, texts', NormalizedFields);
      FilterPermutation(FlatMap(texts, NormalizedFields), FlatMap(texts', NormalizedFields), Kept);
    }
  }

  /** Permuted words give a permuted ranking. */
  lemma RankingPermutation(words: seq<string>, words': seq<string>)
    requires multiset(words) == multiset(words')
    ensures multiset(Ranking(Tally(words))) == multiset(Ranking(Tally(words')))
  {
    RankingDistinct(words);
    RankingDistinct(words');
    forall e ensures e in Ranking(Tally(words)) <==> e in Ranking(Tally(words')) {
      RankingMembers(words, e);
      RankingMembers(words', e);
      assert e.term in words <==> e.term in multiset(words);
      assert e.term in words' <==> e.term in multiset(words');
    }
    SameElementsPermutation(Ranking(Tally(words)), Ranking(Tally(words')));
  }

  lemma RankingCounts(words: seq<string>, words': seq<string>)
    requires multiset(words) == multiset(words')
    ensures Map(Ranking(Tally(words)), Count) == Map(Ranking(Tally(words')), Count)
  {
    var a, b := Ranking(Tally(words)), Ranking(Tally(words'));
    RankingPermutation(words, words');
    MapPermutation(a, b, Count);
    NonIncreasingUnique(Map(a, Count), Map(b, Count));
  }

  /** Permuted words give the same ranking up to the order of equal
      counts, so the same sequence of counts. */
  lemma RankCountsPermutation(words: seq<string>, words': seq<string>)
    requires multiset(words) == multiset(words')
    ensures Map(Rank(words), Count) == Map(Rank(words'), Count)
  {
    RankingCounts(words, words');
    MapTake(Ranking(Tally(words)), Ranking(Tally(words')), Count, MaxTerms);
  }

  /** Term counts do not depend on the order of the texts: the same counts
      in the same positions, the same count for a term both report; only
      which of equally counted terms comes first can change. */
  lemma OrderIndependent(texts: seq<string>, texts': seq<string>)
    requires multiset(texts) == multiset(texts')
    ensures Map(GenerateWordFrequencies(texts), Count) == Map(GenerateWordFrequencies(texts'), Count)
    ensures forall i, j :: 0 <= i < |GenerateWordFrequencies(texts)| && 0 <= j < |GenerateWordFrequencies(texts')|
              && GenerateWordFrequencies(texts)[i].term == GenerateWordFrequencies(texts')[j].term
              ==> GenerateWordFrequencies(texts)[i].count == GenerateWordFrequencies(texts')[j].count
  {
    var words, words' := Words(texts), Words(texts');
    WordsPermutation(texts, texts');
    RankCountsPermutation(words, words');
    forall i, j | 0 <= i < |Rank(words)| && 0 <= j < |Rank(words')| && Rank(words)[i].term == Rank(words')[j].term
      ensures Rank(words)[i].count == Rank(words')[j].count
    {
      RankEntries(words, i);
      RankEntries(words', j);
    }
  }

  /** Among equally counted terms the object's key order is kept. */
  lemma TiesKeepKeyOrder(words: seq<string>, v: int)
    ensures SameRank(Ranking(Tally(words)), Count, v)
            == SameRank(OwnKeysOrder(Filter(OwnKeysOrder(Tally(words), Term), IsFrequent), Term), Count, v)
  {
    SortByStable(OwnKeysOrder(Filter(OwnKeysOrder(Tally(words), Term), IsFrequent), Term), Count, v);
  }

  lemma NormalizedUnchanged(t: string)
    requires forall i :: 0 <= i < |t| ==> IsLowerWordOrSpace(t[i])
    ensures Normalize(t) == t
  {
    assert Lower(t) == t;
    FilterAll(t, IsWordOrSpace);
  }

  lemma FieldsOfWord(w: string)
    requires NoSpace(w)
    ensures Fields(w) == [w]
  {
    FirstSpaceUnique(w, |w|);
    FieldsAtFirstSpace(w);
  }

  predicate IsLowerWord(w: string) {
    forall i :: 0 <= i < |w| ==> IsLowerWordChar(w[i])
  }

  lemma {:induction false} JoinedChars(ws: seq<string>)
    requires forall k :: 0 <= k < |ws| ==> IsLowerWord(ws[k])
    ensures forall i :: 0 <= i < |Join(ws, " ")| ==> IsLowerWordOrSpace(Join(ws, " ")[i])
  {
    if |ws| > 1 {
      var t, rest := Join(ws, " "), Join(ws[1..], " ");
      JoinedChars(ws[1..]);
      assert t == ws[0] + [' '] + rest;
      forall i | 0 <= i < |t| ensures IsLowerWordOrSpace(t[i]) {
        if i > |ws[0]| {
          assert t[i] == rest[i - |ws[0]| - 1];
        }
      }
    }
  }

  lemma {:induction false} JoinedFields(ws: seq<string>)
    requires forall k :: 0 <= k < |ws| ==> NoSpace(ws[k])
    ensures Fields(Join(ws, " ")) == if ws == [] then [""] else ws
  {
    if |ws| <= 1 {
      FieldsOfWord(Join(ws, " "));
    } else {
      var rest := Join(ws[1..], " ");
      JoinedFields(ws[1..]);
      assert Join(ws, " ") == ws[0] + [' '] + rest;
      FieldsOfWord(ws[0]);
      FieldsConcat(ws[0], ' ', rest);
      assert ws == [ws[0]] + ws[1..];
    }
  }

  /** Lower-case words joined by single spaces split back into those
      words, and normalising leaves them as they are. */
  lemma JoinedWords(ws: seq<string>)
    requires forall k :: 0 <= k < |ws| ==> IsLowerWord(ws[k])
    ensures NormalizedFields(Join(ws, " ")) == if ws == [] then [""] else ws
  {
    var j := Join(ws, " ");
    assert NormalizedFields(j) == Fields(j) by {
      JoinedChars(ws);
      NormalizedFieldsUnchanged(j);
    }
    assert Fields(j) == if ws == [] then [""] else ws by {
      LowerWordsNoSpace(ws);
      JoinedFields(ws);
    }
  }

  lemma NormalizedFieldsUnchanged(t: string)
    requires forall i :: 0 <= i < |t| ==> IsLowerWordOrSpace(t[i])
    ensures NormalizedFields(t) == Fields(t)
  {
    NormalizedUnchanged(t);
  }

  lemma LowerWordsNoSpace(ws: seq<string>)
    requires forall k :: 0 <= k < |ws| ==> IsLowerWord(ws[k])
    ensures forall k :: 0 <= k < |ws| ==> NoSpace(ws[k])
  {
    forall k | 0 <= k < |ws| ensures NoSpace(ws[k]) {
      assert IsLowerWord(ws[k]);
    }
  }

  /** Texts made only of stop words and words of at most two characters
      give no terms, however many texts there are. */
  lemma {:induction false} DroppedWordsOnly(groups: seq<seq<string>>)
    requires forall k, i :: 0 <= k < |groups| && 0 <= i < |groups[k]| ==> IsLowerWord(groups[k][i]) && !Kept(groups[k][i])
    ensures GenerateWordFrequencies(Map(groups, JoinWords)) == []
  {
    var texts := Map(groups, JoinWords);
    if texts != [] {
      WordsOfEachText(texts);
      forall k | 0 <= k < |texts| ensures Filter(NormalizedFields(texts[k]), Kept) == [] {
        JoinedWords(groups[k]);
        FilterNone(NormalizedFields(texts[k]), Kept);
      }
      FilterFlatMapNone(texts, NormalizedFields, Kept);
    }
    NoWordsNoTerms(texts);
  }
}
